=== FILE: README.md ===
# binance_data_stream in Dafny

This project models the live-ingestion core of binance_data_stream. That
Python service reads Binance trade events from a websocket buffer and upserts
each trade into a MongoDB collection named after its symbol and stream. It
reports what happens to a logger and to a Telegram chat. The model also covers
the string helpers this relies on, the configuration normalisation at
start-up, and the directory layout and grouping step of the data checker.

Modules, one per source file, plus three shared ones:

- `Outcomes`: Python's `None` and the exceptions that matter (`Option`, `Result`, `PyError`).
- `Values`: decoded JSON values, and the values stored in documents.
- `Constants`: stand-ins for the field-name constants.
- `Text`: ASCII `lower`/`upper`, `strip(c)`, and `split`/`join` on one character.
- `Utils` (`utils.py`):
  - `get_standardized_str`;
  - the MongoDB connection string;
  - collection naming.
- `DataBase` (`workers/data_base.py`):
  - the wire-key-to-field mapping;
  - `_base_parse_trade`;
  - `_send_log_info`.
- `MongoManager` (`workers/mongo_manager.py`):
  - a document store of named collections, each holding documents in insertion order;
  - `init_collection`;
  - `update_one` with `$set` and upsert.
- `DataReceiver` (`workers/data_receiver.py`):
  - one iteration of the receive loop, as a pure transition on (backlog flag, store);
  - the trade handler;
  - exchange-wide symbol selection.
- `StartReceiver` (`start_receiver.py`): lower-casing of the configured symbols and streams.
- `DataChecker` (`workers/data_checker.py`):
  - the checker's pause and directories;
  - grouping trade files by symbol directory;
  - the file stem.

Environment and I/O are parameters:

- `json.loads` is a function `string -> Option<Json>`.
- The popped buffer entry, the buffer length, and whether the store raises on
  this write are fields of an `Iteration`.
- `os.getenv` results are `Option<string>`.
- The exchange info is a list of `SymbolInfo`.
- The outcome of a Telegram send is a `TelegramReply`.
- Log output is the list of `_send_log_info` calls an iteration makes (`LogCall`).

Behaviour of the code that the model keeps:

- **Backlog check after `continue`.** The backlog check at the bottom of the loop
  (`workers/data_receiver.py:63-68`) is skipped when a message fails to decode or
  lacks `stream`/`data`. Those paths `continue` (lines 47 and 50). Such an
  iteration neither warns nor updates the flag (`SkipsBacklogCheck`). Every other
  iteration that does not stop the receiver runs the check.
- **Warning on both crossings.** The flag records whether the buffer holds more
  than 1000 entries. A warning is sent whenever that state changes, when the
  buffer rises above 1000 and again when it falls back to 1000 or fewer.
- **"warning" level.** `_send_log_info` has no logger branch for this level. The
  backlog warning therefore only goes to Telegram (`BacklogWarningReachesOnlyTelegram`).
- **Escaping exceptions.** Any exception outside the inner `try` reaches the outer
  handler, which logs it and re-raises, and the receiver stops (`Faulted`). The
  model covers these cases (errors raised while pymongo encodes a document are
  not modelled; see "## Left out"):
  - a payload that is not an object;
  - a missing `e`;
  - a missing wire key;
  - a non-numeric `T`;
  - a non-string stream, symbol or event.

## Model

| member | source | states |
|---|---|---|
| `Utils.GetStandardizedStr` | utils.py:9-10 | the result is `strip(' ')` of `strip('\n')` of the lower-cased input: each strip cuts only its character from the two ends and leaves none at either end; overall only newlines and spaces at the ends are cut, and the result has no upper-case letter |
| `Utils.StandardizedKeepsCleanInput` | utils.py:9-10 | a lower-case string with no newline or space at either end is returned unchanged |
| `Utils.StandardizedIsNotIdempotent` | utils.py:9-10 | the two strips run in order, so " \nA" standardises to "\na" and that to "a": applying the function twice differs from once |
| `Utils.ConnectionString` | utils.py:13-18 | an explicit `connect_cred` is used verbatim; otherwise the URI starts with "mongodb://" and ends with ":27017/" |
| `Utils.ConnectionStringRoundTrip` | utils.py:14-17 | without `connect_cred`, user, password and host (unset ones rendered "None") are read back from the URI when they avoid the delimiters |
| `Utils.CollectionNameInjective` | utils.py:24-26 | for symbols without "_", two collection names are equal exactly when the upper-cased symbols and the lower-cased streams are equal |
| `Utils.CollectionNameIgnoresCase` | workers/mongo_manager.py:50-53 | the collection name does not depend on the case in which symbol and stream are given |
| `DataBase.CopyColumns` | workers/data_base.py:50 | the dict comprehension succeeds exactly when every wire key is present; each field holds its wire value; otherwise `KeyError` for the first missing wire key in column order |
| `DataBase.BaseParseTrade` | workers/data_base.py:29-53 | parsing succeeds exactly when all six wire keys are present and `T` is a number; the document has exactly the six mapped fields plus the parsed time; each mapped field holds its wire value; a missing key raises `KeyError` for a wire key |
| `DataBase.ParseReadsOnlyWireKeys` | workers/data_base.py:49-53 | two payloads agreeing on the six wire keys parse to the same outcome |
| `DataBase.SendLogInfo` | workers/data_base.py:33-47 | on every path, including a failing send, each of the four logger methods is reached exactly when the level names it and before Telegram; Telegram is tried exactly when asked for; a timeout adds an info record; any other Telegram failure raises `TelegramError` |
| `DataBase.FailedSendKeepsLoggerRecord` | workers/data_base.py:33-44 | a send that raises has reached the same sinks as a delivered one: the logger record is already written |
| `DataBase.UnloggedLevelReachesOnlyTelegram` | workers/data_base.py:33-47 | a level outside debug/info/error/exception reaches no logger method, only Telegram and its timeout report, whatever the send does |
| `MongoManager.InitCollection` | workers/mongo_manager.py:18-23 | addresses the collection named `SYMBOL_stream`; adds to its declared indexes exactly the unique (trade id, parsed time) index and no other; keeps its documents and every other collection |
| `MongoManager.InitCollectionIdempotent` | workers/mongo_manager.py:18-23 | calling `init_collection` again changes nothing |
| `MongoManager.Upsert` | workers/mongo_manager.py:25-28 | `$set` with upsert writes every update field over the first matching document and keeps its other fields; with no match, appends the query field plus the update; all other documents keep their positions |
| `MongoManager.UpsertIdempotent` | workers/mongo_manager.py:25-28 | upserting twice with a `$set` that keeps the queried value equals upserting once |
| `MongoManager.UpsertKeepsUnique` | workers/mongo_manager.py:25-28 | an upsert keyed on a field that is unique in the collection keeps it unique |
| `MongoManager.UpsertLeavesExactlyOne` | workers/mongo_manager.py:25-28 | afterwards exactly one document matches the query: the one written |
| `MongoManager.UpdateOne` | workers/mongo_manager.py:25-32 | a store error is logged at level error (to Telegram) and changes nothing; otherwise the named collection holds the upsert's result and nothing else changes |
| `MongoManager.UpdateOneKeepsUniqueIds` | workers/mongo_manager.py:25-32 | an upsert by trade id keeps every collection at most one document per trade id |
| `MongoManager.UpdateOneIdempotent` | workers/mongo_manager.py:25-32 | repeating `update_one` with the same arguments leaves the store as the first call left it |
| `DataReceiver.ParseMsg` | workers/data_receiver.py:90-93 | succeeds exactly when `_base_parse_trade` does; the parsed fields plus `is_checked`, which is false |
| `DataReceiver.ProcessTradeTicker` | workers/data_receiver.py:74-84 | returns exactly when the payload is an object with `e` that is either the "error" event or carries the six wire keys with a numeric `T` and string `s` and `e`; a non-object raises `TypeError`, a missing `e` raises `KeyError('e')`; a handled trade logs nothing or one error record, and keeps every collection at most one document per trade id |
| `DataReceiver.ErrorEventLeavesStore` | workers/data_receiver.py:75-78 | an event of type "error" is logged at level error and leaves the store unchanged |
| `DataReceiver.IncompleteTradeRaises` | workers/data_receiver.py:75-80 | a payload without `e`, or a non-error event missing a wire key, raises out of the handler |
| `DataReceiver.ValidTradeIsStored` | workers/data_receiver.py:80-84 | a valid trade is upserted into `SYMBOL_event`, queried by its trade id (the wire field `t`), and marked unchecked |
| `DataReceiver.TradeStoredOnce` | workers/data_receiver.py:81-84 | the target collection then holds exactly one document with that trade id; it has every field of the trade and keeps the others; other trades and collections are untouched |
| `DataReceiver.StoreFailureKeepsDocuments` | workers/data_receiver.py:81-84 | when the store raises, one error record is logged and no document anywhere changes |
| `DataReceiver.ProcessTradeTickerIdempotent` | workers/data_receiver.py:74-84 | handling the same trade payload twice leaves the store as handling it once |
| `DataReceiver.Step` | workers/data_receiver.py:35-72 | every iteration that reaches the backlog check sets the flag to "length above 1000" and warns exactly when that differs from the previous flag; an iteration that `continue`s before the check keeps the state and does not warn; the one-document-per-trade-id invariant is kept; a decoded message that is not an object, or whose stream is not a string, stops the receiver; an escaping exception logs one exception record; a processed message logs the debug record after its handler's records and before any warning |
| `DataReceiver.StepIdleChecksBacklog` | workers/data_receiver.py:37-68 | an empty pop only runs the backlog check: store unchanged, flag set to the current state, warning exactly on a change |
| `DataReceiver.StepSkipsUndecodable` | workers/data_receiver.py:40-47 | an undecodable message is logged at level exception and skipped; store and flag are unchanged |
| `DataReceiver.StepSkipsIncompleteEnvelope` | workers/data_receiver.py:42-50 | an envelope without `stream` or `data` is skipped silently with nothing changed |
| `DataReceiver.StepRoutesOnStreamSuffix` | workers/data_receiver.py:52-55 | the trade handler runs exactly when the stream's text after the last "@", lower-cased, is "trade"; other streams leave the store alone |
| `DataReceiver.StepIdempotent` | workers/data_receiver.py:37-68 | replaying an iteration on the state it produced changes nothing and emits no warning |
| `DataReceiver.RunWarningsAtCrossings` | workers/data_receiver.py:35-68 | along any run of iterations, one warns exactly when it reaches the check and its backlog state differs from the one seen at the last earlier check, or from the initial flag when there was none; skipping iterations neither warn nor reset that reference |
| `DataReceiver.FirstCheckFromStart` | workers/data_receiver.py:35-68 | the flag starts cleared, so the first iteration reaching the check warns exactly when the buffer is above 1000 |
| `DataReceiver.NoRepeatedWarning` | workers/data_receiver.py:63-68 | after a warning, an iteration whose backlog is on the same side of 1000 does not warn again |
| `DataReceiver.BacklogWarningReachesOnlyTelegram` | workers/data_receiver.py:65-67 | the backlog warning reaches Telegram and no logger method, and raises only when the send fails |
| `DataReceiver.TradingSymbolsAppend` | workers/data_receiver.py:23-26 | the TRADING filter distributes over concatenation, so it keeps the exchange's order |
| `DataReceiver.TradingSymbolsMembership` | workers/data_receiver.py:23-26 | a symbol is selected exactly when some entry with status "TRADING" carries it |
| `DataReceiver.GetAllSymbols` | workers/data_receiver.py:23-26 | the loop returns exactly the filtered list, no longer than the exchange list |
| `DataReceiver.SelectSymbols` | workers/data_receiver.py:18 | the string "all" selects exactly the trading symbols; anything else is kept as given |
| `StartReceiver.NormalizeConfig` | start_receiver.py:13-22 | a symbol string is lower-cased; symbol and stream lists are lower-cased element by element with length and order kept; absent streams stay absent; the result has no upper-case letter |
| `StartReceiver.NormalizeKeepsLowerConfig` | start_receiver.py:16-22 | an already lower-case configuration is unchanged |
| `StartReceiver.NormalizeConfigIdempotent` | start_receiver.py:16-22 | normalising twice equals normalising once |
| `StartReceiver.AnyCaseOfAllSelectsTrading` | start_receiver.py:16-24 | a symbol string spelling "all" in any case selects exactly the trading symbols |
| `StartReceiver.SymbolListIsUsedAsGiven` | start_receiver.py:18-24 | a list of symbols, even ["ALL"], is used as the lower-cased list |
| `DataChecker.NewChecker` | workers/data_checker.py:8-13 | the pause is kept in seconds and converts back exactly to the given hours, fractional ones included; the trades and order-book directories are one path segment below the root |
| `DataChecker.CheckerDirsDiffer` | workers/data_checker.py:12-13 | the two data directories differ for every root |
| `DataChecker.DefaultChecker` | workers/data_checker.py:8-13 | the defaults give a 43200-second pause and `./data/trades`, `./data/order_book` |
| `DataChecker.GroupKey` | workers/data_checker.py:34 | defined exactly when the path has a "/" (otherwise `IndexError`); the key is lower-case and slash-free |
| `DataChecker.GroupKeyOfStoredFile` | workers/data_checker.py:23-34 | a file `<root>/<SYMBOL>/<name>` is grouped under the lower-cased symbol |
| `DataChecker.FilesWithKeyAppend` | workers/data_checker.py:33-35 | grouping distributes over concatenation, so each group keeps input order |
| `DataChecker.FileInExactlyOneGroup` | workers/data_checker.py:32-35 | a listed file is in the group of its own key and in no other |
| `DataChecker.GroupSizesAddUp` | workers/data_checker.py:32-35 | over the distinct keys, the group sizes add up to the number of files |
| `DataChecker.GroupBySymbol` | workers/data_checker.py:32-35 | the loop succeeds exactly when every path has a directory part; its keys are exactly the occurring keys; each group is that key's files in input order |
| `DataChecker.FileStem` | workers/data_checker.py:41 | the last path segment without its final four characters, empty if it is shorter; slash-free |
| `DataChecker.FileStemOfStoredFile` | workers/data_checker.py:41 | the stem of `<dir>/<name>.csv` is `name` |
| `Text.LastFieldIsSuffix` | workers/data_receiver.py:52 | `split(sep)[-1]` is the separator-free suffix after the last separator, or the whole string when there is none |

## Left out

- Transport, timing and loops:
  - the websocket manager, `create_stream` and the buffer itself;
  - the `time.time`/`time.sleep` calls;
  - the infinite `while True` loops, of which one iteration is modelled.
- Setup and I/O:
  - the MongoDB client;
  - the Binance client construction;
  - the Telegram bot;
  - dotenv, argparse, YAML and logging setup (start_receiver.py:28-42);
  - `start_checker.py`;
  - `workers/data_writer.py`.
- `workers/constants.py` is not part of this model. Its field names are
  pairwise-distinct stand-ins. The one name the code indexes by its literal
  value, the symbol field, is "symbol".
- `_process_book_ticker` only prints: an order-book message leaves the store alone.
- The data checker's `glob` discovery, the stubs `_process_trade_file`,
  `_delete_old_file` and `_check_order_books`, and the unused, unfinished `int`
  parsing at workers/data_checker.py:44.
- DataReceiver.Step:
  - It treats every `_send_log_info` call as returning. A non-timeout Telegram
    failure inside it would raise. `DataBase.SendLogInfo` models that failure,
    with the logger record written before it, on its own.
  - The message-timing text of the debug record is not modelled.
- MongoManager.UpdateOne:
  - errors raised while pymongo encodes the query or document are not modelled.
    An integer outside the signed 64-bit range makes it raise `OverflowError`,
    which is not a `PyMongoError`, so it escapes `update_one`
    (workers/mongo_manager.py:26-29). The model has no such path, because the
    encoder is library code and integers are unbounded here;
  - the `acknowledged` check at workers/mongo_manager.py:34-37 is not modelled, because
    an acknowledged write is assumed;
  - a `PyMongoError` from `create_index` is not modelled;
  - a rejection by the unique index is not modelled separately, because trade ids
    are already unique per collection.
- DataChecker.NewChecker: hours are exact reals. Python float rounding of
  `sleep_time * 60 * 60` is not modelled, and neither is a non-numeric YAML
  value.
- MongoManager.Upsert: the receiver's query is `{trade_id: <wire value of t>}`,
  and matching is structural equality of that value. MongoDB's own rules for
  such a filter are not modelled: a scalar also matches the elements of a
  stored array, and a `t` that is an object with `$`-keys is read as an
  operator.
- DataReceiver.ProcessTradeTicker: counts a trade as handled whatever the size
  of its integers. In the code, a wire value outside the signed 64-bit range
  makes `update_one` raise `OverflowError` and stops the receiver; that path is
  not modelled (see MongoManager.UpdateOne).
- DataReceiver.ValidTradeIsStored: states that every parsed trade is stored,
  which the code does only for trades whose integers fit in 64 bits; larger
  ones raise out of `update_one`, outside the model.
- DataBase.ParsedTime: the datetime is kept as its millisecond count. Float
  division, the datetime range errors of `utcfromtimestamp` and JSON floats are
  not modelled (numbers are integers).
- Text: `lower`, `upper` and `strip` are modelled over ASCII letters only. Unicode
  case mapping is not modelled.
- MongoManager duplicates the connection-string and collection-name helpers
  of utils.py (workers/mongo_manager.py:39-53). Both copies are modelled by the single
  `Utils` definitions.

=== FILE: constants.dfy ===
/** Document field names. `workers/constants.py` is not part of this model: the
    names below stand in for its constants, and the proofs rely only on their
    being pairwise distinct and distinct from the literal field names of
    `parsing_trade_columns`. `SymbolField` must be "symbol", because the
    receiver reads the parsed document's literal "symbol" key through it. */
module Constants {

  const SymbolField := "symbol"
  const TradeIdField := "trade_id"
  const TradeTimestampField := "timestamp"
  const TradeParsedTimeField := "parsed_time"
  const IsCheckedField := "is_checked"
}

=== FILE: data_base.dfy ===
/** `workers/data_base.py`: the mapping from the trade feed's wire keys to
    document fields, trade parsing, and the dispatch of a log message to the
    logger and to Telegram. */
module DataBase {
  import opened Outcomes
  import opened Values
  import opened Constants

  /** A stored document: field name to value. */
  type Doc = map<string, Value>

  /** `parsing_trade_columns`, in declaration order: document field and the
      wire key it is copied from. */
  const ParsingTradeColumns: seq<(string, string)> := [
    ("symbol", "s"), (TradeIdField, "t"), ("price", "p"), ("quantity", "q"),
    (TradeTimestampField, "T"), ("is_buyer_market_maker", "m")
  ]

  /** The wire keys a trade event must carry. */
  const WireKeys: set<string> := {"s", "t", "p", "q", "T", "m"}

  /** The fields of a parsed trade: the six copied fields and the parsed time. */
  const ParsedTradeFields: set<string> :=
    {"symbol", TradeIdField, "price", "quantity", TradeTimestampField,
     "is_buyer_market_maker", TradeParsedTimeField}

  /** No two columns write the same document field. */
  predicate DistinctFields(cols: seq<(string, string)>) {
    forall i, j :: 0 <= i < j < |cols| ==> cols[i].0 != cols[j].0
  }

  /** `datetime.utcfromtimestamp(T / 1000)`: defined for numbers (a Python bool
      is a number), a `TypeError` for anything else. The datetime is kept as the
      millisecond count that determines it. */
  function ParsedTime(t: Json): Result<Value> {
    match t
    case JNum(n) => Ok(DateTime(n))
    case JBool(b) => Ok(DateTime(if b then 1 else 0))
    case _ => Raised(TypeError)
  }

  /** The dict comprehension `{k: data[v] for k, v in cols}`: copies each wire
      value under its document field, raising `KeyError` for the first wire key
      (in column order) that the data lacks. */
  function CopyColumns(data: map<string, Json>, cols: seq<(string, string)>): (r: Result<Doc>)
    requires DistinctFields(cols)
    ensures r.Ok? <==> forall k :: 0 <= k < |cols| ==> cols[k].1 in data
    ensures r.Ok? ==> r.value.Keys == set k | 0 <= k < |cols| :: cols[k].0
    ensures r.Ok? ==> forall k :: 0 <= k < |cols| ==> r.value[cols[k].0] == Wire(data[cols[k].1])
    ensures r.Raised? ==> exists k :: FirstMissing(data, cols, k) && r.error == KeyError(cols[k].1)
  {
    if |cols| == 0 then Ok(map[])
    else if cols[0].1 !in data then
      assert FirstMissing(data, cols, 0);
      Raised(KeyError(cols[0].1))
    else
      assert DistinctFields(cols[1..]);
      match CopyColumns(data, cols[1..])
      case Raised(e) =>
        assert exists k :: FirstMissing(data, cols, k) && e == KeyError(cols[k].1) by {
          var k :| FirstMissing(data, cols[1..], k) && e == KeyError(cols[1..][k].1);
          assert FirstMissing(data, cols, k + 1);
        }
        Raised(e)
      case Ok(rest) =>
        var d := rest[cols[0].0 := Wire(data[cols[0].1])];
        assert d.Keys == set k | 0 <= k < |cols| :: cols[k].0 by {
          forall f | f in d.Keys
            ensures exists k :: 0 <= k < |cols| && cols[k].0 == f
          {
            if f != cols[0].0 {
              var k :| 0 <= k < |cols[1..]| && cols[1..][k].0 == f;
              assert cols[k + 1].0 == f;
            }
          }
          forall k | 0 <= k < |cols|
            ensures cols[k].0 in d
          {
            if k > 0 {
              assert cols[1..][k - 1] == cols[k];
            }
          }
        }
        forall k | 0 < k < |cols|
          ensures d[cols[k].0] == Wire(data[cols[k].1])
        {
          assert cols[1..][k - 1] == cols[k];
        }
        Ok(d)
  }

  /** `cols[k].1` is the first wire key of `cols` missing from `data`. */
  ghost predicate FirstMissing(data: map<string, Json>, cols: seq<(string, string)>, k: int) {
    && 0 <= k < |cols|
    && cols[k].1 !in data
    && forall j :: 0 <= j < k ==> cols[j].1 in data
  }

  /** `_base_parse_trade`: the six mapped wire values plus the datetime derived
      from the millisecond timestamp `T`. */
  function BaseParseTrade(data: map<string, Json>): (r: Result<Doc>)
    ensures r.Ok? <==> WireKeys <= data.Keys && ParsedTime(data["T"]).Ok?
    ensures r.Ok? ==> r.value.Keys == ParsedTradeFields
    ensures r.Ok? ==> forall k :: 0 <= k < |ParsingTradeColumns| ==>
                        r.value[ParsingTradeColumns[k].0] == Wire(data[ParsingTradeColumns[k].1])
    ensures r.Ok? ==> r.value[TradeParsedTimeField] == ParsedTime(data["T"]).value
    ensures !(WireKeys <= data.Keys) ==> r.Raised? && r.error.KeyError? && r.error.key in WireKeys
  {
    ColumnFields();
    match CopyColumns(data, ParsingTradeColumns)
    case Raised(e) =>
      MissingWireKey(data, e);
      Raised(e)
    case Ok(parsed) =>
      CopiedWireKeys(data, parsed);
      match ParsedTime(data["T"])
      case Raised(e) => Raised(e)
      case Ok(time) =>
        AddedParsedTime(data, parsed, time);
        Ok(parsed[TradeParsedTimeField := time])
  }

  /** A failed copy is a `KeyError` for a wire key the data lacks. */
  lemma MissingWireKey(data: map<string, Json>, e: PyError)
    requires DistinctFields(ParsingTradeColumns)
    requires CopyColumns(data, ParsingTradeColumns) == Raised(e)
    ensures e.KeyError? && e.key in WireKeys && e.key !in data
  {
    ColumnWireKeys();
    var k :| FirstMissing(data, ParsingTradeColumns, k) && e == KeyError(ParsingTradeColumns[k].1);
  }

  /** A successful copy means every wire key is present. */
  lemma CopiedWireKeys(data: map<string, Json>, parsed: Doc)
    requires DistinctFields(ParsingTradeColumns)
    requires CopyColumns(data, ParsingTradeColumns) == Ok(parsed)
    ensures WireKeys <= data.Keys
    ensures TradeTimestampField in parsed && parsed[TradeTimestampField] == Wire(data["T"])
  {
    ColumnWireKeys();
    ColumnFields();
  }

  /** Adding the parsed time to a copied trade gives the parsed-trade shape. */
  lemma AddedParsedTime(data: map<string, Json>, parsed: Doc, time: Value)
    requires DistinctFields(ParsingTradeColumns)
    requires CopyColumns(data, ParsingTradeColumns) == Ok(parsed)
    ensures parsed[TradeParsedTimeField := time].Keys == ParsedTradeFields
    ensures forall k :: 0 <= k < |ParsingTradeColumns| ==>
              parsed[TradeParsedTimeField := time][ParsingTradeColumns[k].0] == Wire(data[ParsingTradeColumns[k].1])
  {
    ColumnFields();
  }

  /** The document fields `parsing_trade_columns` writes: pairwise distinct,
      and with the parsed time exactly the fields of a parsed trade. */
  lemma ColumnFields()
    ensures DistinctFields(ParsingTradeColumns)
    ensures (set k | 0 <= k < |ParsingTradeColumns| :: ParsingTradeColumns[k].0) + {TradeParsedTimeField}
            == ParsedTradeFields
    ensures ParsingTradeColumns[4] == (TradeTimestampField, "T")
    ensures forall k :: 0 <= k < |ParsingTradeColumns| ==> ParsingTradeColumns[k].0 != TradeParsedTimeField
  {
    var cols := ParsingTradeColumns;
    assert cols[0].0 == "symbol" && cols[1].0 == TradeIdField && cols[2].0 == "price";
    assert cols[3].0 == "quantity" && cols[4].0 == TradeTimestampField;
    assert cols[5].0 == "is_buyer_market_maker";
  }

  /** The wire keys `parsing_trade_columns` reads are exactly `WireKeys`. */
  lemma ColumnWireKeys()
    ensures forall k :: 0 <= k < |ParsingTradeColumns| ==> ParsingTradeColumns[k].1 in WireKeys
    ensures forall w :: w in WireKeys ==> exists k :: 0 <= k < |ParsingTradeColumns| && ParsingTradeColumns[k].1 == w
  {
    var cols := ParsingTradeColumns;
    assert cols[0].1 == "s" && cols[1].1 == "t" && cols[2].1 == "p";
    assert cols[3].1 == "q" && cols[4].1 == "T" && cols[5].1 == "m";
  }

  /** Parsing reads nothing but the six wire keys: inputs that agree on them
      parse to the same outcome. */
  lemma ParseReadsOnlyWireKeys(data1: map<string, Json>, data2: map<string, Json>)
    requires forall w :: w in WireKeys ==> (w in data1 <==> w in data2)
    requires forall w :: w in WireKeys && w in data1 ==> data1[w] == data2[w]
    ensures BaseParseTrade(data1) == BaseParseTrade(data2)
  {
    var cols := ParsingTradeColumns;
    ColumnFields();
    ColumnWireKeys();
    CopyColumnsReadsOnlyWireKeys(data1, data2, cols);
  }

  lemma {:induction false} CopyColumnsReadsOnlyWireKeys(data1: map<string, Json>, data2: map<string, Json>,
                                                          cols: seq<(string, string)>)
    requires DistinctFields(cols)
    requires forall k :: 0 <= k < |cols| ==> (cols[k].1 in data1 <==> cols[k].1 in data2)
    requires forall k :: 0 <= k < |cols| && cols[k].1 in data1 ==> data1[cols[k].1] == data2[cols[k].1]
    ensures CopyColumns(data1, cols) == CopyColumns(data2, cols)
  {
    if |cols| > 0 && cols[0].1 in data1 {
      assert DistinctFields(cols[1..]);
      CopyColumnsReadsOnlyWireKeys(data1, data2, cols[1..]);
    }
  }

  /** A call of `_send_log_info`: its level and whether it goes to Telegram. */
  datatype LogCall = LogCall(level: string, toTelegram: bool)

  /** Where a log message ends up. */
  datatype Sink = DebugLog | InfoLog | ErrorLog | ExceptionLog | TelegramSend

  /** What `bot.send_message` does. */
  datatype TelegramReply = Delivered | TimedOut | SendFailed

  /** The levels `_send_log_info` passes to a logger method. */
  const LoggedLevels: set<string> := {"debug", "info", "error", "exception"}

  /** What a call of `_send_log_info` did: the sinks it reached, in order,
      and the exception it raised, if any. */
  datatype Dispatch = Dispatch(sinks: seq<Sink>, raised: Option<PyError>)

  /** `_send_log_info`: the level picks at most one logger method, which runs
      first; Telegram is tried when asked for; a Telegram timeout is reported
      to the info logger and swallowed, and any other Telegram error
      propagates after the logger method has already run. */
  function SendLogInfo(level: string, toTelegram: bool, reply: TelegramReply): (r: Dispatch)
    ensures r.raised.Some? <==> toTelegram && reply == SendFailed
    ensures r.raised.Some? ==> r.raised.value == TelegramError
    ensures TelegramSend in r.sinks <==> toTelegram
    ensures DebugLog in r.sinks <==> level == "debug"
    ensures ErrorLog in r.sinks <==> level == "error"
    ensures ExceptionLog in r.sinks <==> level == "exception"
    ensures InfoLog in r.sinks <==> level == "info" || (toTelegram && reply == TimedOut)
    ensures level in LoggedLevels ==> |r.sinks| > 0 && r.sinks[0] != TelegramSend
  {
    var logged :=
      if level == "debug" then [DebugLog]
      else if level == "info" then [InfoLog]
      else if level == "error" then [ErrorLog]
      else if level == "exception" then [ExceptionLog]
      else [];
    if !toTelegram then Dispatch(logged, None)
    else
      match reply
      case Delivered => Dispatch(logged + [TelegramSend], None)
      case TimedOut => Dispatch(logged + [TelegramSend, InfoLog], None)
      case SendFailed => Dispatch(logged + [TelegramSend], Some(TelegramError))
  }

  /** A failed send reaches the same sinks as a delivered one: the logger
      record is written before the send raises. */
  lemma FailedSendKeepsLoggerRecord(level: string, toTelegram: bool)
    ensures SendLogInfo(level, toTelegram, SendFailed).sinks == SendLogInfo(level, toTelegram, Delivered).sinks
  {
  }

  /** A level outside the four handled ones, such as "warning", reaches no
      logger method; only Telegram and its timeout report remain. */
  lemma UnloggedLevelReachesOnlyTelegram(level: string, toTelegram: bool, reply: TelegramReply)
    requires level !in LoggedLevels
    ensures var sinks := SendLogInfo(level, toTelegram, reply).sinks;
            forall i :: 0 <= i < |sinks| ==> sinks[i] == TelegramSend || (sinks[i] == InfoLog && reply == TimedOut)
  {
  }
}

=== FILE: data_checker.dfy ===
/** `workers/data_checker.py`: the checker's directory layout, and the step
    of `_are_trades_sequential` that groups trade files by the symbol
    directory they sit in. */
module DataChecker {
  import opened Outcomes
  import opened Text

  const SecondsPerHour: real := 3600.0

  /** The checker's settings: the pause between passes in seconds, and the
      data root with its trades and order-book directories. */
  datatype Checker = Checker(sleepSeconds: real, rootDir: string, tradesDir: string, orderBookDir: string)

  const DefaultSleepHours: real := 12.0
  const DefaultRootDir := "./data"
  const TradesSubdir := "trades"
  const OrderBookSubdir := "order_book"

  /** The constructor: the pause is given in hours, possibly fractional, and
      kept in seconds; the trades and order-book directories sit directly
      below the root. */
  function NewChecker(hours: real, rootDir: string): (c: Checker)
    ensures c.sleepSeconds / SecondsPerHour == hours
    ensures c.rootDir == rootDir
    ensures Split(c.tradesDir, '/') == Split(rootDir, '/') + [TradesSubdir]
    ensures Split(c.orderBookDir, '/') == Split(rootDir, '/') + [OrderBookSubdir]
  {
    var tradesDir := rootDir + "/" + TradesSubdir;
    var orderBookDir := rootDir + "/" + OrderBookSubdir;
    ChildDirSegments(rootDir, TradesSubdir);
    ChildDirSegments(rootDir, OrderBookSubdir);
    Checker(hours * 60.0 * 60.0, rootDir, tradesDir, orderBookDir)
  }

  /** `f'{dir}/{name}'` adds exactly one path segment when `name` holds no
      slash. */
  lemma ChildDirSegments(dir: string, name: string)
    requires '/' !in name
    ensures Split(dir + "/" + name, '/') == Split(dir, '/') + [name]
  {
    assert dir + "/" + name == dir + ['/'] + name;
    SplitConcat(dir, name, '/');
    SplitWithoutSep(name, '/');
  }

  /** The two data directories are distinct, whatever the root. */
  lemma CheckerDirsDiffer(hours: real, rootDir: string)
    ensures NewChecker(hours, rootDir).tradesDir != NewChecker(hours, rootDir).orderBookDir
  {
    var c := NewChecker(hours, rootDir);
    var n := |Split(rootDir, '/')|;
    assert Split(c.tradesDir, '/')[n] == TradesSubdir;
    assert Split(c.orderBookDir, '/')[n] == OrderBookSubdir;
    assert TradesSubdir[0] != OrderBookSubdir[0];
  }

  /** With the constructor's defaults, the checker pauses 43200 seconds and
      reads `./data/trades` and `./data/order_book`. */
  lemma DefaultChecker()
    ensures NewChecker(DefaultSleepHours, DefaultRootDir)
            == Checker(43200.0, "./data", "./data/trades", "./data/order_book")
  {
    assert DefaultRootDir + "/" + TradesSubdir == "./data/trades";
    assert DefaultRootDir + "/" + OrderBookSubdir == "./data/order_book";
  }

  /** `file.split('/')[-2].lower()`: the lower-cased name of the directory
      holding the file. A path with a single segment has no second-to-last
      one and raises `IndexError`. */
  function GroupKey(file: string): (r: Result<string>)
    ensures r.Ok? <==> '/' in file
    ensures r.Ok? ==> NoUpper(r.value) && '/' !in r.value
  {
    var segs := Split(file, '/');
    SplitHasSeveralFields(file, '/');
    if |segs| < 2 then Raised(IndexError)
    else
      var dir := segs[|segs| - 2];
      LowerHasNoUpper(dir);
      CaseKeepsNonLetter(dir, '/');
      Ok(Lower(dir))
  }

  /** A file stored as `<root>/<SYMBOL>/<name>` is grouped under the
      lower-cased symbol directory. */
  lemma GroupKeyOfStoredFile(root: string, symbol: string, name: string)
    requires '/' !in symbol && '/' !in name
    ensures GroupKey(root + "/" + symbol + "/" + name) == Ok(Lower(symbol))
  {
    ChildDirSegments(root, symbol);
    ChildDirSegments(root + "/" + symbol, name);
  }

  /** Every path in the list has a directory part. */
  predicate AllGrouped(files: seq<string>) {
    forall i :: 0 <= i < |files| ==> GroupKey(files[i]).Ok?
  }

  /** The files of the list grouped under `key`, in list order. */
  function FilesWithKey(files: seq<string>, key: string): seq<string> {
    if |files| == 0 then []
    else (if GroupKey(files[0]) == Ok(key) then [files[0]] else []) + FilesWithKey(files[1..], key)
  }

  /** Grouping distributes over concatenation: each group keeps the order in
      which its files appear. */
  lemma {:induction false} FilesWithKeyAppend(a: seq<string>, b: seq<string>, key: string)
    ensures FilesWithKey(a + b, key) == FilesWithKey(a, key) + FilesWithKey(b, key)
    decreases |a|
  {
    if |a| > 0 {
      assert (a + b)[1..] == a[1..] + b;
      FilesWithKeyAppend(a[1..], b, key);
    } else {
      assert a + b == b;
    }
  }

  /** A file is in the group of `key` exactly when it is in the list and its
      key is `key`. */
  lemma {:induction false} FilesWithKeyMembership(files: seq<string>, key: string, file: string)
    ensures file in FilesWithKey(files, key) <==> file in files && GroupKey(file) == Ok(key)
    decreases |files|
  {
    if |files| > 0 {
      FilesWithKeyMembership(files[1..], key, file);
      assert file in files <==> file == files[0] || file in files[1..];
    }
  }

  /** The groups partition the list: a listed file belongs to the group of
      its own key and to no other. */
  lemma FileInExactlyOneGroup(files: seq<string>, file: string, key: string)
    requires file in files && GroupKey(file).Ok?
    ensures file in FilesWithKey(files, key) <==> key == GroupKey(file).value
  {
    FilesWithKeyMembership(files, key, file);
  }

  /** No file is lost or duplicated: the group sizes over the distinct keys
      add up to the length of the list. */
  lemma {:induction false} GroupSizesAddUp(files: seq<string>, keys: seq<string>)
    requires AllGrouped(files)
    requires forall i :: 0 <= i < |files| ==> GroupKey(files[i]).value in keys
    requires forall i, j :: 0 <= i < j < |keys| ==> keys[i] != keys[j]
    ensures SumOfGroupSizes(files, keys) == |files|
    decreases |files|
  {
    if |files| > 0 {
      GroupSizesAddUp(files[1..], keys);
      GroupSizesSplit(files, keys, GroupKey(files[0]).value);
    } else {
      SumOfEmptyGroups(keys);
    }
  }

  function SumOfGroupSizes(files: seq<string>, keys: seq<string>): nat {
    if |keys| == 0 then 0 else |FilesWithKey(files, keys[0])| + SumOfGroupSizes(files, keys[1..])
  }

  lemma {:induction false} SumOfEmptyGroups(keys: seq<string>)
    ensures SumOfGroupSizes([], keys) == 0
    decreases |keys|
  {
    if |keys| > 0 {
      SumOfEmptyGroups(keys[1..]);
    }
  }

  /** Dropping the first file shrinks exactly its own group by one. */
  lemma {:induction false} GroupSizesSplit(files: seq<string>, keys: seq<string>, key: string)
    requires |files| > 0 && GroupKey(files[0]) == Ok(key)
    requires key in keys
    requires forall i, j :: 0 <= i < j < |keys| ==> keys[i] != keys[j]
    ensures SumOfGroupSizes(files, keys) == SumOfGroupSizes(files[1..], keys) + 1
    decreases |keys|
  {
    if keys[0] == key {
      assert key !in keys[1..];
      SumUnchangedWithoutKey(files, keys[1..], key);
    } else {
      GroupSizesSplit(files, keys[1..], key);
    }
  }

  /** Groups of other keys do not see the first file. */
  lemma {:induction false} SumUnchangedWithoutKey(files: seq<string>, keys: seq<string>, key: string)
    requires |files| > 0 && GroupKey(files[0]) == Ok(key)
    requires key !in keys
    ensures SumOfGroupSizes(files, keys) == SumOfGroupSizes(files[1..], keys)
    decreases |keys|
  {
    if |keys| > 0 {
      SumUnchangedWithoutKey(files, keys[1..], key);
    }
  }

  /** `groups` holds, under each key, the files of `files` with that key, and
      no other keys. */
  ghost predicate GroupsOf(groups: map<string, seq<string>>, files: seq<string>) {
    && (forall key :: key in groups <==> FilesWithKey(files, key) != [])
    && (forall key :: key in groups ==> groups[key] == FilesWithKey(files, key))
  }

  /** Appending a file to the list of its key extends the grouping by that
      file. */
  lemma AddToGroup(groups: map<string, seq<string>>, files: seq<string>, file: string, key: string)
    requires GroupsOf(groups, files)
    requires GroupKey(file) == Ok(key)
    ensures GroupsOf(groups[key := (if key in groups then groups[key] else []) + [file]], files + [file])
  {
    forall k
      ensures FilesWithKey(files + [file], k) == FilesWithKey(files, k) + (if k == key then [file] else [])
    {
      FilesWithKeyAppend(files, [file], k);
      assert [file][1..] == [];
    }
  }

  /** The `defaultdict(list)` loop of `_are_trades_sequential`: each file is
      appended to the list of its key; a file without a directory part makes
      the loop raise `IndexError`. */
  method GroupBySymbol(files: seq<string>) returns (r: Result<map<string, seq<string>>>)
    ensures r.Ok? <==> AllGrouped(files)
    ensures r.Raised? ==> r.error == IndexError
    ensures r.Ok? ==> GroupsOf(r.value, files)
  {
    var groups: map<string, seq<string>> := map[];
    var i := 0;
    while i < |files|
      invariant 0 <= i <= |files|
      invariant AllGrouped(files[..i])
      invariant GroupsOf(groups, files[..i])
    {
      var file := files[i];
      assert files[..i + 1] == files[..i] + [file];
      match GroupKey(file) {
        case Raised(e) =>
          return Raised(e);
        case Ok(key) =>
          AddToGroup(groups, files[..i], file, key);
          groups := groups[key := (if key in groups then groups[key] else []) + [file]];
      }
      i := i + 1;
    }
    assert files[..i] == files;
    return Ok(groups);
  }

  /** `file.split('/')[-1][:-4]`: the file name without its last four
      characters (a ".csv" extension); a name shorter than that becomes
      empty. */
  function FileStem(file: string): (stem: string)
    ensures '/' !in stem
    ensures var name := LastField(file, '/');
            |stem| == if |name| < 4 then 0 else |name| - 4
    ensures stem <= LastField(file, '/')
  {
    var name := LastField(file, '/');
    LastFieldIsSuffix(file, '/');
    if |name| < 4 then "" else name[..|name| - 4]
  }

  /** The stem of a stored `<dir>/<name>.csv` is `name`. */
  lemma FileStemOfStoredFile(dir: string, name: string)
    requires '/' !in name
    ensures FileStem(dir + "/" + name + ".csv") == name
  {
    assert '/' !in name + ".csv";
    ChildDirSegments(dir, name + ".csv");
    assert dir + "/" + name + ".csv" == dir + "/" + (name + ".csv");
    assert (name + ".csv")[..|name|] == name;
  }
}

=== FILE: data_receiver.dfy ===
/** `workers/data_receiver.py`: one iteration of the websocket receiver's
    loop as a pure transition, the trade handler it routes to, and the
    exchange-wide symbol selection. */
module DataReceiver {
  import opened Outcomes
  import opened Values
  import opened Constants
  import opened Text
  import opened Utils
  import opened DataBase
  import opened MongoManager

  /** The stream buffer counts as backlogged above this many entries. */
  const BacklogThreshold := 1000

  predicate Exceeds(bufferLen: nat) {
    bufferLen > BacklogThreshold
  }

  /** The loop's state: the backlog flag of the last check (`last_buffer_excel`)
      and the document store. */
  datatype Receiver = Receiver(lastBufferExceeded: bool, store: Store)

  /** What one iteration observes: the popped buffer entry (`None` when the
      buffer was empty), the buffer length read after the pop, and whether the
      store raises on this iteration's write. */
  datatype Iteration = Iteration(popped: Option<string>, bufferLen: nat, storeFails: bool)

  /** An iteration either lets the loop go on, or an exception escapes to the
      outer handler, which logs it and re-raises: the receiver stops. */
  datatype StepResult = Continue(next: Receiver, logs: seq<LogCall>) | Faulted(logs: seq<LogCall>)

  const DebugCall := LogCall("debug", false)
  const ErrorCall := LogCall("error", true)
  const ExceptionCall := LogCall("exception", true)
  const WarningCall := LogCall("warning", true)

  /** The loop starts with the flag cleared. */
  function Start(store: Store): Receiver {
    Receiver(false, store)
  }

  predicate Warned(logs: seq<LogCall>) {
    WarningCall in logs
  }

  /** Lines 63-68: warn when the backlog state differs from the last one seen,
      and remember the current state. */
  function BacklogCheck(lastExceeded: bool, bufferLen: nat): (bool, seq<LogCall>) {
    var current := Exceeds(bufferLen);
    (current, if lastExceeded != current then [WarningCall] else [])
  }

  /** Ends an iteration that reaches the backlog check. */
  function Checked(lastExceeded: bool, store: Store, bufferLen: nat, logs: seq<LogCall>): StepResult {
    var (flag, warning) := BacklogCheck(lastExceeded, bufferLen);
    Continue(Receiver(flag, store), logs + warning)
  }

  /** `msg['stream']` and `msg['data']` on the decoded message: `None` when a
      key is missing (the `KeyError` is caught), `TypeError` when the message
      is not an object. */
  function Envelope(msg: Json): Result<Option<(Json, Json)>> {
    match msg
    case JObj(fields) =>
      if "stream" in fields && "data" in fields then Ok(Some((fields["stream"], fields["data"])))
      else Ok(None)
    case _ => Raised(TypeError)
  }

  /** `stream.split('@')[-1].lower() == 'trade'`; a non-string stream has no
      `split`. */
  function IsTradeStream(stream: Json): Result<bool> {
    match stream
    case JStr(s) => Ok(Lower(LastField(s, '@')) == "trade")
    case _ => Raised(AttributeError)
  }

  /** `_parse_msg`: a parsed trade marked unchecked. */
  function ParseMsg(data: map<string, Json>): (r: Result<Doc>)
    ensures r.Ok? <==> BaseParseTrade(data).Ok?
    ensures r.Ok? ==> r.value.Keys == ParsedTradeFields + {IsCheckedField}
    ensures r.Ok? ==> r.value[IsCheckedField] == Wire(JBool(false))
    ensures r.Ok? ==> forall f :: f in BaseParseTrade(data).value ==> r.value[f] == BaseParseTrade(data).value[f]
    ensures r.Raised? ==> r == BaseParseTrade(data)
  {
    match BaseParseTrade(data)
    case Raised(e) => Raised(e)
    case Ok(parsed) =>
      assert IsCheckedField !in parsed;
      Ok(parsed[IsCheckedField := Wire(JBool(false))])
  }

  /** The document query of a parsed trade: `{trade_id: <its id>}`. */
  function TradeQuery(doc: Doc): Query
    requires TradeIdField in doc
  {
    Query(TradeIdField, doc[TradeIdField])
  }

  /** `_process_trade_ticker`: an `error` event is logged and dropped;
      any other event is parsed and upserted by trade id into the collection
      named after its symbol and event type. */
  function ProcessTradeTicker(store: Store, data: Json, storeFails: bool): (r: Result<(Store, seq<LogCall>)>)
    ensures r.Ok? <==> data.JObj? && "e" in data.fields
                       && (data.fields["e"] == JStr("error") || StorableTrade(data.fields))
    ensures !data.JObj? ==> r == Raised(TypeError)
    ensures data.JObj? && "e" !in data.fields ==> r == Raised(KeyError("e"))
    ensures r.Ok? ==> r.value.1 == [] || r.value.1 == [ErrorCall]
    ensures r.Ok? && UniqueTradeIds(store) ==> UniqueTradeIds(r.value.0)
  {
    if !data.JObj? then Raised(TypeError)
    else if "e" !in data.fields then Raised(KeyError("e"))
    else if data.fields["e"] == JStr("error") then Ok((store, [ErrorCall]))
    else
      match ParseMsg(data.fields)
      case Raised(e) => Raised(e)
      case Ok(doc) =>
        ParsedSymbol(data.fields);
        match TradeTarget(doc, data.fields["e"])
        case Raised(e) => Raised(e)
        case Ok((symbol, event)) => Ok(StoreTrade(store, doc, symbol, event, storeFails))
  }

  /** A trade event that the handler can parse and name a collection for: it
      carries its event type and the six wire keys, `T` is a number, and the
      symbol and the event type are strings. */
  predicate StorableTrade(fields: map<string, Json>) {
    && "e" in fields && WireKeys <= fields.Keys
    && ParsedTime(fields["T"]).Ok?
    && fields["s"].JStr? && fields["e"].JStr?
  }

  /** The parsed document's symbol is the wire field `s`. */
  lemma ParsedSymbol(fields: map<string, Json>)
    requires ParseMsg(fields).Ok?
    ensures "s" in fields && ParseMsg(fields).value[SymbolField] == Wire(fields["s"])
  {
    assert ParsingTradeColumns[0] == (SymbolField, "s");
    var parsed := BaseParseTrade(fields).value;
    assert parsed[SymbolField] == Wire(fields["s"]);
  }

  /** `symbol.upper()` and `e.lower()` need strings: the symbol and event type
      naming the target collection. */
  function TradeTarget(doc: Doc, event: Json): Result<(string, string)>
    requires SymbolField in doc
  {
    match (doc[SymbolField], event)
    case (Wire(JStr(symbol)), JStr(e)) => Ok((symbol, e))
    case _ => Raised(AttributeError)
  }

  /** `init_collection` followed by `update_one` with the trade-id query. */
  function StoreTrade(store: Store, doc: Doc, symbol: string, event: string, storeFails: bool): (r: (Store, seq<LogCall>))
    requires TradeIdField in doc
    ensures r.1 == [] || r.1 == [ErrorCall]
    ensures UniqueTradeIds(store) ==> UniqueTradeIds(r.0)
  {
    var (db, name) := InitCollection(store, symbol, event);
    InitCollectionKeepsUniqueIds(store, symbol, event);
    if UniqueTradeIds(db) then
      UpdateOneKeepsUniqueIds(db, name, TradeQuery(doc), doc, storeFails);
      UpdateOne(db, name, TradeQuery(doc), doc, storeFails)
    else
      UpdateOne(db, name, TradeQuery(doc), doc, storeFails)
  }

  lemma InitCollectionKeepsUniqueIds(store: Store, symbol: string, stream: string)
    ensures UniqueTradeIds(store) ==> UniqueTradeIds(InitCollection(store, symbol, stream).0)
  {
    var (db, name) := InitCollection(store, symbol, stream);
    assert forall n :: n in db ==> db[n].docs == CollectionOf(store, n).docs;
  }

  /** The iterations that `continue` before the backlog check: a non-empty
      entry that does not decode, or decodes to an object without `stream` or
      without `data`. */
  predicate SkipsBacklogCheck(it: Iteration, loads: string -> Option<Json>) {
    && it.popped.Some? && it.popped.value != ""
    && match loads(it.popped.value)
       case None => true
       case Some(msg) => Envelope(msg) == Ok(None)
  }

  /** A non-empty entry that decodes: the message the loop works on. */
  predicate Decodes(it: Iteration, loads: string -> Option<Json>) {
    it.popped.Some? && it.popped.value != "" && loads(it.popped.value).Some?
  }

  /** A decoded message the loop cannot take apart outside its inner `try`:
      not an object (`msg['stream']` raises `TypeError`), or an object whose
      stream is not a string (`stream.split` raises `AttributeError`). */
  predicate MalformedEnvelope(msg: Json) {
    || !msg.JObj?
    || ("stream" in msg.fields && "data" in msg.fields && !msg.fields["stream"].JStr?)
  }

  /** One pass of the `while True` loop in `start_websocket`. */
  function Step(rcv: Receiver, it: Iteration, loads: string -> Option<Json>): (res: StepResult)
    ensures Decodes(it, loads) && MalformedEnvelope(loads(it.popped.value).value) ==> res == Faulted([ExceptionCall])
    ensures res.Continue? && Decodes(it, loads) && !SkipsBacklogCheck(it, loads) ==>
              var n := if Warned(res.logs) then 2 else 1;
              && |res.logs| >= n && res.logs[|res.logs| - n] == DebugCall
              && (Warned(res.logs) ==> res.logs[|res.logs| - 1] == WarningCall)
    ensures res.Continue? ==> (Warned(res.logs) <==> res.next.lastBufferExceeded != rcv.lastBufferExceeded)
    ensures res.Continue? && res.next.lastBufferExceeded != rcv.lastBufferExceeded ==>
              res.next.lastBufferExceeded == Exceeds(it.bufferLen)
    ensures res.Continue? && UniqueTradeIds(rcv.store) ==> UniqueTradeIds(res.next.store)
    ensures res.Faulted? ==> res.logs == [ExceptionCall]
    ensures res.Continue? && !SkipsBacklogCheck(it, loads) ==>
              && res.next.lastBufferExceeded == Exceeds(it.bufferLen)
              && (Warned(res.logs) <==> rcv.lastBufferExceeded != Exceeds(it.bufferLen))
    ensures res.Continue? && SkipsBacklogCheck(it, loads) ==> res.next == rcv && !Warned(res.logs)
  {
    if it.popped.None? || it.popped.value == "" then
      Checked(rcv.lastBufferExceeded, rcv.store, it.bufferLen, [])
    else
      match loads(it.popped.value)
      case None => Continue(rcv, [ExceptionCall])
      case Some(msg) =>
        match Envelope(msg)
        case Raised(_) => Faulted([ExceptionCall])
        case Ok(None) => Continue(rcv, [])
        case Ok(Some((stream, data))) =>
          match IsTradeStream(stream)
          case Raised(_) => Faulted([ExceptionCall])
          case Ok(false) => Checked(rcv.lastBufferExceeded, rcv.store, it.bufferLen, [DebugCall])
          case Ok(true) =>
            match ProcessTradeTicker(rcv.store, data, it.storeFails)
            case Raised(_) => Faulted([ExceptionCall])
            case Ok((store, logs)) => Checked(rcv.lastBufferExceeded, store, it.bufferLen, logs + [DebugCall])
  }

  /** An empty pop (nothing, or a falsy empty string) only runs the backlog
      check: the store is untouched, the flag takes the current backlog state,
      and a warning goes out exactly when that state changed. */
  lemma StepIdleChecksBacklog(rcv: Receiver, it: Iteration, loads: string -> Option<Json>)
    requires it.popped.None? || it.popped.value == ""
    ensures Step(rcv, it, loads)
            == Continue(Receiver(Exceeds(it.bufferLen), rcv.store),
                        if rcv.lastBufferExceeded != Exceeds(it.bufferLen) then [WarningCall] else [])
  {
  }

  /** A message that does not decode is reported at level `exception` and
      skipped with `continue`: store and backlog flag are unchanged (the
      backlog check is skipped too). */
  lemma StepSkipsUndecodable(rcv: Receiver, it: Iteration, loads: string -> Option<Json>)
    requires it.popped.Some? && it.popped.value != ""
    requires loads(it.popped.value).None?
    ensures Step(rcv, it, loads) == Continue(rcv, [ExceptionCall])
  {
  }

  /** An object without `stream` or without `data` is skipped silently:
      nothing is logged and nothing changes. */
  lemma StepSkipsIncompleteEnvelope(rcv: Receiver, it: Iteration, loads: string -> Option<Json>,
                                    fields: map<string, Json>)
    requires it.popped.Some? && it.popped.value != ""
    requires loads(it.popped.value) == Some(JObj(fields))
    requires "stream" !in fields || "data" !in fields
    ensures Step(rcv, it, loads) == Continue(rcv, [])
  {
  }

  /** Routing: a message reaches the trade handler exactly when the part of
      its stream name after the last `@`, lower-cased, is "trade"; any other
      stream goes to the order-book handler, which leaves the store alone. */
  lemma StepRoutesOnStreamSuffix(rcv: Receiver, it: Iteration, loads: string -> Option<Json>,
                                 fields: map<string, Json>, stream: string)
    requires it.popped.Some? && it.popped.value != ""
    requires loads(it.popped.value) == Some(JObj(fields))
    requires "stream" in fields && "data" in fields && fields["stream"] == JStr(stream)
    ensures Lower(LastField(stream, '@')) != "trade" ==>
              Step(rcv, it, loads).Continue? && Step(rcv, it, loads).next.store == rcv.store
    ensures Lower(LastField(stream, '@')) == "trade" ==>
              match ProcessTradeTicker(rcv.store, fields["data"], it.storeFails)
              case Raised(_) => Step(rcv, it, loads).Faulted?
              case Ok((store, _)) => Step(rcv, it, loads).Continue? && Step(rcv, it, loads).next.store == store
  {
  }

  /** A trade payload whose event type is "error" is logged at level `error`
      and leaves the store unchanged. */
  lemma ErrorEventLeavesStore(store: Store, fields: map<string, Json>, storeFails: bool)
    requires "e" in fields && fields["e"] == JStr("error")
    ensures ProcessTradeTicker(store, JObj(fields), storeFails) == Ok((store, [ErrorCall]))
  {
  }

  /** A trade payload missing its event type, or one of the six wire keys,
      raises out of the handler. */
  lemma IncompleteTradeRaises(store: Store, fields: map<string, Json>, storeFails: bool)
    requires "e" !in fields || (fields["e"] != JStr("error") && !(WireKeys <= fields.Keys))
    ensures ProcessTradeTicker(store, JObj(fields), storeFails).Raised?
  {
  }

  /** A valid trade event goes to `StoreTrade` with its parsed document and
      the collection named after its symbol and event type; that document
      carries the event's trade id and is marked unchecked. */
  lemma ValidTradeIsStored(store: Store, fields: map<string, Json>, symbol: string, event: string, storeFails: bool)
    requires "e" in fields && fields["e"] == JStr(event) && event != "error"
    requires ParseMsg(fields).Ok? && ParseMsg(fields).value[SymbolField] == Wire(JStr(symbol))
    ensures var doc := ParseMsg(fields).value;
            && ProcessTradeTicker(store, JObj(fields), storeFails) == Ok(StoreTrade(store, doc, symbol, event, storeFails))
            && doc[TradeIdField] == Wire(fields["t"])
            && doc[IsCheckedField] == Wire(JBool(false))
  {
    var doc := ParseMsg(fields).value;
    ParsedTradeId(fields);
    assert TradeTarget(doc, fields["e"]) == Ok((symbol, event));
  }

  /** The parsed document's trade id is the wire field `t`. */
  lemma ParsedTradeId(fields: map<string, Json>)
    requires ParseMsg(fields).Ok?
    ensures ParseMsg(fields).value[TradeIdField] == Wire(fields["t"])
  {
    assert ParsingTradeColumns[1] == (TradeIdField, "t");
    var parsed := BaseParseTrade(fields).value;
    assert parsed[TradeIdField] == Wire(fields["t"]);
  }

  /** After a trade is stored, the collection named `SYMBOL_event` holds
      exactly one document with its trade id. That document carries every
      field of the trade, and any field it had before that the trade does not
      set. No other collection and no document with another trade id
      changes. */
  lemma TradeStoredOnce(store: Store, doc: Doc, symbol: string, event: string)
    requires UniqueTradeIds(store)
    requires TradeIdField in doc
    ensures var name := CollectionName(symbol, event);
            var q := TradeQuery(doc);
            var before := CollectionOf(store, name).docs;
            var (db, logs) := StoreTrade(store, doc, symbol, event, false);
            && logs == []
            && name in db
            && var after := db[name].docs;
            && |MatchIndices(after, q)| == 1
            && var k := UpsertSlot(before, q);
            && k in MatchIndices(after, q)
            && (forall f :: f in doc ==> f in after[k] && after[k][f] == doc[f])
            && (k < |before| ==> forall f :: f in before[k] && f !in doc ==> after[k][f] == before[k][f])
            && (forall j :: 0 <= j < |before| && !Matches(before[j], q) ==> after[j] == before[j])
            && (forall n :: n in store && n != name ==> db[n] == store[n])
  {
    var name := CollectionName(symbol, event);
    var q := TradeQuery(doc);
    var before := CollectionOf(store, name).docs;
    assert UniqueOn(before, TradeIdField);
    UpsertLeavesExactlyOne(before, q, doc);
    UpsertLeavesOthers(before, q, doc);
  }

  /** A store failure leaves every document where it was: only the
      collection's index declaration may be new. */
  lemma StoreFailureKeepsDocuments(store: Store, doc: Doc, symbol: string, event: string)
    requires TradeIdField in doc
    ensures var (db, logs) := StoreTrade(store, doc, symbol, event, true);
            && logs == [ErrorCall]
            && (forall n :: n in store ==> n in db && db[n].docs == store[n].docs)
            && (forall n :: n in db && n !in store ==> db[n].docs == [])
  {
  }

  /** Processing the same message twice leaves the state the first pass
      left: the second pass writes nothing new and, its backlog state being
      unchanged, emits no warning. */
  lemma StepIdempotent(rcv: Receiver, it: Iteration, loads: string -> Option<Json>)
    requires Step(rcv, it, loads).Continue?
    ensures var next := Step(rcv, it, loads).next;
            Step(next, it, loads).Continue? && Step(next, it, loads).next == next
            && !Warned(Step(next, it, loads).logs)
  {
    var next := Step(rcv, it, loads).next;
    if it.popped.Some? && it.popped.value != "" {
      match loads(it.popped.value)
      case None =>
      case Some(msg) =>
        match Envelope(msg)
        case Raised(_) =>
        case Ok(None) =>
        case Ok(Some((stream, data))) =>
          if IsTradeStream(stream) == Ok(true) {
            ProcessTradeTickerIdempotent(rcv.store, data, it.storeFails);
          }
    }
  }

  /** The trade handler is idempotent on the store. */
  lemma ProcessTradeTickerIdempotent(store: Store, data: Json, storeFails: bool)
    requires ProcessTradeTicker(store, data, storeFails).Ok?
    ensures var (store1, logs) := ProcessTradeTicker(store, data, storeFails).value;
            ProcessTradeTicker(store1, data, storeFails) == Ok((store1, logs))
  {
    var fields := data.fields;
    if fields["e"] != JStr("error") {
      var doc := ParseMsg(fields).value;
      var (symbol, event) := TradeTarget(doc, fields["e"]).value;
      StoreTradeIdempotent(store, doc, symbol, event, storeFails);
    }
  }

  lemma StoreTradeIdempotent(store: Store, doc: Doc, symbol: string, event: string, storeFails: bool)
    requires TradeIdField in doc
    ensures var (store1, logs) := StoreTrade(store, doc, symbol, event, storeFails);
            StoreTrade(store1, doc, symbol, event, storeFails) == (store1, logs)
  {
    var (db, name) := InitCollection(store, symbol, event);
    var store1 := UpdateOne(db, name, TradeQuery(doc), doc, storeFails).0;
    assert InitCollection(store1, symbol, event) == (store1, name) by {
      assert TradeIndex in store1[name].indexes;
      assert store1[name := Collection(store1[name].indexes + {TradeIndex}, store1[name].docs)] == store1;
    }
    UpdateOneIdempotent(db, name, TradeQuery(doc), doc, storeFails);
  }

  /** The warnings of a run of iterations from `rcv`, one per iteration,
      ending early when an iteration stops the receiver. */
  function RunWarnings(rcv: Receiver, its: seq<Iteration>, loads: string -> Option<Json>): (w: seq<bool>)
    ensures |w| <= |its|
    decreases |its|
  {
    if |its| == 0 then []
    else
      match Step(rcv, its[0], loads)
      case Faulted(_) => []
      case Continue(next, logs) => [Warned(logs)] + RunWarnings(next, its[1..], loads)
  }

  /** The backlog state seen by the last iteration before `i` that reached
      the check, or `initial` when none did. */
  function PriorBacklog(initial: bool, its: seq<Iteration>, loads: string -> Option<Json>, i: nat): bool
    requires i <= |its|
    decreases i
  {
    if i == 0 then initial
    else if SkipsBacklogCheck(its[i - 1], loads) then PriorBacklog(initial, its, loads, i - 1)
    else Exceeds(its[i - 1].bufferLen)
  }

  lemma {:induction false} PriorBacklogShift(initial: bool, its: seq<Iteration>, loads: string -> Option<Json>, i: nat)
    requires 1 <= i <= |its|
    ensures PriorBacklog(initial, its, loads, i)
            == PriorBacklog(if SkipsBacklogCheck(its[0], loads) then initial else Exceeds(its[0].bufferLen),
                            its[1..], loads, i - 1)
    decreases i
  {
    if i > 1 {
      assert its[1..][i - 2] == its[i - 1];
      if SkipsBacklogCheck(its[i - 1], loads) {
        PriorBacklogShift(initial, its, loads, i - 1);
      }
    }
  }

  /** The backlog warning is edge-triggered: along any run, an iteration warns
      exactly when it reaches the check and its backlog state differs from
      the one seen by the last earlier iteration that reached the check (from
      the flag's initial value when there is none). Iterations that skip the
      check neither warn nor reset the reference state. */
  lemma {:induction false} RunWarningsAtCrossings(rcv: Receiver, its: seq<Iteration>, loads: string -> Option<Json>)
    ensures var w := RunWarnings(rcv, its, loads);
            forall i :: 0 <= i < |w| ==>
              (w[i] <==> !SkipsBacklogCheck(its[i], loads)
                         && Exceeds(its[i].bufferLen) != PriorBacklog(rcv.lastBufferExceeded, its, loads, i))
    decreases |its|
  {
    if |its| > 0 && Step(rcv, its[0], loads).Continue? {
      var next := Step(rcv, its[0], loads).next;
      var w, rest := RunWarnings(rcv, its, loads), RunWarnings(next, its[1..], loads);
      assert w == [Warned(Step(rcv, its[0], loads).logs)] + rest;
      RunWarningsAtCrossings(next, its[1..], loads);
      forall i | 0 < i < |w|
        ensures w[i] <==> !SkipsBacklogCheck(its[i], loads)
                          && Exceeds(its[i].bufferLen) != PriorBacklog(rcv.lastBufferExceeded, its, loads, i)
      {
        assert w[i] == rest[i - 1];
        assert its[1..][i - 1] == its[i];
        PriorBacklogShift(rcv.lastBufferExceeded, its, loads, i);
      }
    }
  }

  /** The loop starts with the flag cleared (line 35), so the first iteration
      to reach the check warns exactly when the buffer is above the
      threshold. */
  lemma FirstCheckFromStart(store: Store, it: Iteration, loads: string -> Option<Json>)
    requires Step(Start(store), it, loads).Continue? && !SkipsBacklogCheck(it, loads)
    ensures Warned(Step(Start(store), it, loads).logs) <==> Exceeds(it.bufferLen)
  {
  }

  /** While the backlog stays on one side of the threshold, a warning is
      never repeated, whatever the iteration in between did. */
  lemma NoRepeatedWarning(rcv: Receiver, it1: Iteration, it2: Iteration, loads: string -> Option<Json>)
    requires Step(rcv, it1, loads).Continue? && Warned(Step(rcv, it1, loads).logs)
    requires Exceeds(it1.bufferLen) == Exceeds(it2.bufferLen)
    ensures var next := Step(rcv, it1, loads).next;
            Step(next, it2, loads).Continue? ==> !Warned(Step(next, it2, loads).logs)
  {
  }

  /** The backlog warning is dispatched at level "warning", for which
      `_send_log_info` has no logger branch: it is never written to the log,
      only sent to Telegram (plus the info record of a Telegram timeout). */
  lemma BacklogWarningReachesOnlyTelegram(reply: TelegramReply)
    ensures SendLogInfo(WarningCall.level, WarningCall.toTelegram, reply).raised.Some? <==> reply == SendFailed
    ensures var sinks := SendLogInfo(WarningCall.level, WarningCall.toTelegram, reply).sinks;
            && TelegramSend in sinks
            && DebugLog !in sinks && ErrorLog !in sinks && ExceptionLog !in sinks
            && (InfoLog in sinks <==> reply == TimedOut)
  {
  }

  /** An entry of `exchange_info['symbols']`. */
  datatype SymbolInfo = SymbolInfo(symbol: string, status: string)

  /** The symbols of the entries whose status is "TRADING", in order. */
  function TradingSymbols(infos: seq<SymbolInfo>): seq<string> {
    if |infos| == 0 then []
    else (if infos[0].status == "TRADING" then [infos[0].symbol] else []) + TradingSymbols(infos[1..])
  }

  /** Filtering commutes with concatenation, so it keeps the input order. */
  lemma {:induction false} TradingSymbolsAppend(a: seq<SymbolInfo>, b: seq<SymbolInfo>)
    ensures TradingSymbols(a + b) == TradingSymbols(a) + TradingSymbols(b)
    decreases |a|
  {
    if |a| > 0 {
      assert (a + b)[1..] == a[1..] + b;
      TradingSymbolsAppend(a[1..], b);
    } else {
      assert a + b == b;
    }
  }

  /** A symbol is selected exactly when some trading entry carries it. */
  lemma {:induction false} TradingSymbolsMembership(infos: seq<SymbolInfo>, name: string)
    ensures name in TradingSymbols(infos)
            <==> exists i :: 0 <= i < |infos| && infos[i].status == "TRADING" && infos[i].symbol == name
    decreases |infos|
  {
    if |infos| > 0 {
      TradingSymbolsMembership(infos[1..], name);
      if name in TradingSymbols(infos[1..]) {
        var i :| 0 <= i < |infos[1..]| && infos[1..][i].status == "TRADING" && infos[1..][i].symbol == name;
        assert infos[i + 1] == infos[1..][i];
      }
      if exists i :: 0 <= i < |infos| && infos[i].status == "TRADING" && infos[i].symbol == name {
        var i :| 0 <= i < |infos| && infos[i].status == "TRADING" && infos[i].symbol == name;
        if i > 0 {
          assert infos[1..][i - 1] == infos[i];
        }
      }
    }
  }

  /** `_get_all_symbols`: the list comprehension over the exchange info. */
  method GetAllSymbols(infos: seq<SymbolInfo>) returns (symbols: seq<string>)
    ensures symbols == TradingSymbols(infos)
    ensures |symbols| <= |infos|
  {
    symbols := [];
    var i := 0;
    while i < |infos|
      invariant 0 <= i <= |infos|
      invariant symbols == TradingSymbols(infos[..i])
      invariant |symbols| <= i
    {
      TradingSymbolsAppend(infos[..i], [infos[i]]);
      assert infos[..i + 1] == infos[..i] + [infos[i]];
      if infos[i].status == "TRADING" {
        symbols := symbols + [infos[i].symbol];
      }
      i := i + 1;
    }
    assert infos[..i] == infos;
  }

  /** The `symbols` argument of the receiver: one name, or a list of names. */
  datatype Symbols = SymbolText(text: string) | SymbolList(names: seq<string>)

  /** The receiver's constructor: the string 'all' stands for every symbol
      trading on the exchange; anything else is used as given. */
  function SelectSymbols(symbols: Symbols, infos: seq<SymbolInfo>): (r: Symbols)
    ensures symbols == SymbolText("all") ==> r.SymbolList? && (forall s :: s in r.names <==> s in TradingSymbols(infos))
    ensures symbols != SymbolText("all") ==> r == symbols
  {
    if symbols == SymbolText("all") then SymbolList(TradingSymbols(infos)) else symbols
  }
}

=== FILE: mongo_manager.dfy ===
/** `workers/mongo_manager.py` over an abstract document store: a database is
    a map from collection name to collection, and a collection holds a set of
    declared indexes and its documents in insertion order. */
module MongoManager {
  import opened Outcomes
  import opened Values
  import opened Constants
  import opened Utils
  import opened DataBase

  /** An index declaration: its key fields in order, and whether it is unique. */
  datatype Index = Index(keys: seq<string>, unique: bool)

  datatype Collection = Collection(indexes: set<Index>, docs: seq<Doc>)

  type Store = map<string, Collection>

  /** A single-field equality query `{field: value}`, the only kind the
      receiver issues. */
  datatype Query = Query(field: string, value: Value)

  /** The unique index `init_collection` declares on (trade id, parsed time). */
  const TradeIndex := Index([TradeIdField, TradeParsedTimeField], true)

  /** What the store holds under a name it has never seen: MongoDB creates
      collections lazily on first write. */
  const EmptyCollection := Collection({}, [])

  function CollectionOf(db: Store, name: string): Collection {
    if name in db then db[name] else EmptyCollection
  }

  /** `init_collection`: addresses the collection named after symbol and
      stream and declares the trade index on it, creating the collection if
      needed. Documents are untouched. */
  function InitCollection(db: Store, symbol: string, stream: string): (r: (Store, string))
    ensures r.1 == CollectionName(symbol, stream)
    ensures r.0.Keys == db.Keys + {r.1}
    ensures TradeIndex in r.0[r.1].indexes && TradeIndex.unique
    ensures r.0[r.1].indexes == CollectionOf(db, r.1).indexes + {TradeIndex}
    ensures r.0[r.1].docs == CollectionOf(db, r.1).docs
    ensures forall n :: n in db && n != r.1 ==> r.0[n] == db[n]
  {
    var name := CollectionName(symbol, stream);
    var c := CollectionOf(db, name);
    (db[name := Collection(c.indexes + {TradeIndex}, c.docs)], name)
  }

  /** Declaring the index again is a no-op: `init_collection` is idempotent. */
  lemma InitCollectionIdempotent(db: Store, symbol: string, stream: string)
    ensures var (db1, name) := InitCollection(db, symbol, stream);
            InitCollection(db1, symbol, stream) == (db1, name)
  {
    var (db1, name) := InitCollection(db, symbol, stream);
    assert db1[name := Collection(db1[name].indexes + {TradeIndex}, db1[name].docs)] == db1;
  }

  predicate Matches(d: Doc, q: Query) {
    q.field in d && d[q.field] == q.value
  }

  /** The position of the first document matching `q`, if any. */
  function FirstMatch(docs: seq<Doc>, q: Query): (r: Option<nat>)
    ensures r.Some? ==> r.value < |docs| && Matches(docs[r.value], q)
    ensures r.Some? ==> forall j :: 0 <= j < r.value ==> !Matches(docs[j], q)
    ensures r.None? ==> forall j :: 0 <= j < |docs| ==> !Matches(docs[j], q)
  {
    if |docs| == 0 then None
    else if Matches(docs[0], q) then Some(0)
    else
      match FirstMatch(docs[1..], q)
      case None => None
      case Some(i) => Some(i + 1)
  }

  /** The positions of all documents matching `q`. */
  function MatchIndices(docs: seq<Doc>, q: Query): set<nat> {
    set i: nat | i < |docs| && Matches(docs[i], q)
  }

  /** No two documents share a value of `field`. */
  predicate UniqueOn(docs: seq<Doc>, field: string) {
    forall i, j :: 0 <= i < j < |docs| && field in docs[i] && field in docs[j] ==> docs[i][field] != docs[j][field]
  }

  /** The `$set` document does not move the queried field to another value. */
  predicate Compatible(q: Query, update: Doc) {
    q.field in update ==> update[q.field] == q.value
  }

  /** Where an upsert writes: the first match, or a new slot at the end. */
  function UpsertSlot(docs: seq<Doc>, q: Query): (k: nat)
    ensures k <= |docs|
  {
    match FirstMatch(docs, q)
    case Some(i) => i
    case None => |docs|
  }

  /** `update_one(query, {'$set': update}, upsert=True)`: the first matching
      document gets the fields of `update` written over it; with no match, a
      document made of the query field and the `update` fields is appended. */
  function Upsert(docs: seq<Doc>, q: Query, update: Doc): (r: seq<Doc>)
    ensures |r| == if FirstMatch(docs, q).Some? then |docs| else |docs| + 1
    ensures forall j :: 0 <= j < |docs| && j != UpsertSlot(docs, q) ==> r[j] == docs[j]
    ensures var d := r[UpsertSlot(docs, q)];
            forall f :: f in update ==> f in d && d[f] == update[f]
    ensures FirstMatch(docs, q).Some? ==>
              var prev, d := docs[UpsertSlot(docs, q)], r[UpsertSlot(docs, q)];
              d.Keys == prev.Keys + update.Keys && forall f :: f in prev && f !in update ==> d[f] == prev[f]
    ensures FirstMatch(docs, q).None? ==>
              var d := r[|docs|];
              d.Keys == update.Keys + {q.field} && (q.field !in update ==> d[q.field] == q.value)
  {
    match FirstMatch(docs, q)
    case Some(i) => docs[i := docs[i] + update]
    case None => docs + [map[q.field := q.value] + update]
  }

  /** With a compatible `$set`, the written document matches the query. */
  lemma UpsertSlotMatches(docs: seq<Doc>, q: Query, update: Doc)
    requires Compatible(q, update)
    ensures Matches(Upsert(docs, q, update)[UpsertSlot(docs, q)], q)
  {
  }

  /** Documents that do not match the query are never changed, and keep their
      positions. */
  lemma UpsertLeavesOthers(docs: seq<Doc>, q: Query, update: Doc)
    ensures forall j :: 0 <= j < |docs| && !Matches(docs[j], q) ==> Upsert(docs, q, update)[j] == docs[j]
  {
  }

  /** Upserting twice with the same query and compatible `$set` equals
      upserting once. */
  lemma UpsertIdempotent(docs: seq<Doc>, q: Query, update: Doc)
    requires Compatible(q, update)
    ensures Upsert(Upsert(docs, q, update), q, update) == Upsert(docs, q, update)
  {
    var once := Upsert(docs, q, update);
    var k := UpsertSlot(docs, q);
    UpsertSlotMatches(docs, q, update);
    assert FirstMatch(once, q) == Some(k) by {
      FirstMatchIs(once, q, k);
    }
    assert once[k] + update == once[k];
  }

  /** `FirstMatch` finds the position the caller names when that position
      matches and nothing before it does. */
  lemma {:induction false} FirstMatchIs(docs: seq<Doc>, q: Query, k: nat)
    requires k < |docs| && Matches(docs[k], q)
    requires forall j :: 0 <= j < k ==> !Matches(docs[j], q)
    ensures FirstMatch(docs, q) == Some(k)
  {
    if k > 0 {
      FirstMatchIs(docs[1..], q, k - 1);
    }
  }

  /** A compatible upsert on the unique field keeps that field unique. */
  lemma UpsertKeepsUnique(docs: seq<Doc>, q: Query, update: Doc)
    requires UniqueOn(docs, q.field)
    requires Compatible(q, update)
    ensures UniqueOn(Upsert(docs, q, update), q.field)
  {
    var r := Upsert(docs, q, update);
    var k := UpsertSlot(docs, q);
    UpsertSlotMatches(docs, q, update);
    forall i, j | 0 <= i < j < |r| && q.field in r[i] && q.field in r[j]
      ensures r[i][q.field] != r[j][q.field]
    {
      if i == k {
        assert !Matches(docs[j], q) || j == k;
      } else if j == k {
        if k < |docs| {
          assert !Matches(docs[i], q) || i == k;
        }
      }
    }
  }

  /** After a compatible upsert into a collection whose query field is unique,
      exactly one document matches the query: the one written. */
  lemma UpsertLeavesExactlyOne(docs: seq<Doc>, q: Query, update: Doc)
    requires UniqueOn(docs, q.field)
    requires Compatible(q, update)
    ensures MatchIndices(Upsert(docs, q, update), q) == {UpsertSlot(docs, q)}
  {
    var r := Upsert(docs, q, update);
    UpsertKeepsUnique(docs, q, update);
    UpsertSlotMatches(docs, q, update);
    var k := UpsertSlot(docs, q);
    forall i: nat | i < |r| && i != k && q.field in r[i]
      ensures r[i][q.field] != q.value
    {
      if i < k {
        assert r[i][q.field] != r[k][q.field];
      } else {
        assert r[k][q.field] != r[i][q.field];
      }
    }
  }

  /** Every collection of the store holds at most one document per trade id. */
  predicate UniqueTradeIds(db: Store) {
    forall n :: n in db ==> UniqueOn(db[n].docs, TradeIdField)
  }

  /** `update_one`: the upsert, or, when the store raises `PyMongoError`, an
      error log and no change to the store. */
  function UpdateOne(db: Store, name: string, q: Query, update: Doc, storeFails: bool): (r: (Store, seq<LogCall>))
    ensures storeFails ==> r == (db, [LogCall("error", true)])
    ensures !storeFails ==> r.1 == [] && r.0.Keys == db.Keys + {name}
    ensures !storeFails ==> r.0[name].indexes == CollectionOf(db, name).indexes
    ensures !storeFails ==> r.0[name].docs == Upsert(CollectionOf(db, name).docs, q, update)
    ensures forall n :: n in db && n != name ==> r.0[n] == db[n]
  {
    if storeFails then (db, [LogCall("error", true)])
    else
      var c := CollectionOf(db, name);
      (db[name := Collection(c.indexes, Upsert(c.docs, q, update))], [])
  }

  /** An upsert by trade id whose `$set` keeps that id preserves the
      one-document-per-trade-id invariant of the whole store. */
  lemma UpdateOneKeepsUniqueIds(db: Store, name: string, q: Query, update: Doc, storeFails: bool)
    requires UniqueTradeIds(db)
    requires q.field == TradeIdField && Compatible(q, update)
    ensures UniqueTradeIds(UpdateOne(db, name, q, update, storeFails).0)
  {
    if !storeFails {
      assert UniqueOn(CollectionOf(db, name).docs, TradeIdField);
      UpsertKeepsUnique(CollectionOf(db, name).docs, q, update);
    }
  }

  /** Repeating `update_one` with the same arguments leaves the store as the
      first call left it. */
  lemma UpdateOneIdempotent(db: Store, name: string, q: Query, update: Doc, storeFails: bool)
    requires Compatible(q, update)
    ensures var db1 := UpdateOne(db, name, q, update, storeFails).0;
            UpdateOne(db1, name, q, update, storeFails).0 == db1
  {
    if !storeFails {
      var db1 := UpdateOne(db, name, q, update, storeFails).0;
      UpsertIdempotent(CollectionOf(db, name).docs, q, update);
      assert db1[name := Collection(db1[name].indexes, Upsert(db1[name].docs, q, update))] == db1;
    }
  }
}

=== FILE: outcomes.dfy ===
/** Optional values and the Python exceptions the modelled code raises or catches. */
module Outcomes {

  /** A value that may be absent: Python's `None` versus a present value. */
  datatype Option<+T> = None | Some(value: T)

  /** The exception classes that matter to the modelled control flow. */
  datatype PyError =
    | KeyError(key: string)   // a dict lookup of a missing key
    | TypeError               // subscripting a non-dict, dividing a non-number
    | AttributeError          // `.lower()` / `.upper()` / `.split()` on a non-string
    | IndexError              // a list index out of range
    | TelegramError           // a Telegram failure other than a timeout

  /** The outcome of a Python call: a returned value or a raised exception. */
  datatype Result<+T> = Ok(value: T) | Raised(error: PyError)
}

=== FILE: start_receiver.dfy ===
/** `start_receiver.py`: the receiver's configuration is lower-cased before
    the receiver is built from it. */
module StartReceiver {
  import opened Outcomes
  import opened Text
  import opened DataReceiver

  /** The `data_receiver` section of the configuration file: `symbols` is a
      single name or a list of names; `streams` may be absent (`None`). */
  datatype ReceiverConfig = ReceiverConfig(symbols: Symbols, streams: Option<seq<string>>)

  /** `list(map(lambda x: x.lower(), names))`. */
  function LowerAll(names: seq<string>): (r: seq<string>)
    ensures |r| == |names|
    ensures forall k :: 0 <= k < |names| ==> r[k] == Lower(names[k])
  {
    seq(|names|, k requires 0 <= k < |names| => Lower(names[k]))
  }

  /** Every name in the configuration is free of upper-case letters. */
  predicate IsLowerConfig(config: ReceiverConfig) {
    && (match config.symbols
        case SymbolText(text) => NoUpper(text)
        case SymbolList(names) => forall k :: 0 <= k < |names| ==> NoUpper(names[k]))
    && (config.streams.Some? ==> forall k :: 0 <= k < |config.streams.value| ==> NoUpper(config.streams.value[k]))
  }

  /** Two configurations have the same shape, and each name of `b` is the
      lower-cased name at the same position in `a`. */
  predicate LowerCaseOf(b: ReceiverConfig, a: ReceiverConfig) {
    && (match a.symbols
        case SymbolText(text) => b.symbols == SymbolText(Lower(text))
        case SymbolList(names) =>
          && b.symbols.SymbolList?
          && |b.symbols.names| == |names|
          && forall k :: 0 <= k < |names| ==> b.symbols.names[k] == Lower(names[k]))
    && (a.streams.None? <==> b.streams.None?)
    && (a.streams.Some? ==>
          && |b.streams.value| == |a.streams.value|
          && forall k :: 0 <= k < |a.streams.value| ==> b.streams.value[k] == Lower(a.streams.value[k]))
  }

  /** `main`, lines 13-22: a string of symbols is lower-cased, a list of them
      element-wise; absent streams stay absent, a list of them is lower-cased
      element-wise. */
  function NormalizeConfig(config: ReceiverConfig): (r: ReceiverConfig)
    ensures LowerCaseOf(r, config)
    ensures IsLowerConfig(r)
  {
    var symbols := match config.symbols
      case SymbolText(text) => SymbolText(Lower(text))
      case SymbolList(names) => SymbolList(LowerAll(names));
    var streams := match config.streams
      case None => None
      case Some(names) => Some(LowerAll(names));
    var r := ReceiverConfig(symbols, streams);
    LowerConfigOfLowerCase(r, config);
    r
  }

  /** A configuration whose names are the lower-cased names of another is
      lower-case. */
  lemma LowerConfigOfLowerCase(b: ReceiverConfig, a: ReceiverConfig)
    requires LowerCaseOf(b, a)
    ensures IsLowerConfig(b)
  {
    match a.symbols {
      case SymbolText(text) => LowerHasNoUpper(text);
      case SymbolList(names) =>
        forall k | 0 <= k < |names|
          ensures NoUpper(b.symbols.names[k])
        {
          LowerHasNoUpper(names[k]);
        }
    }
    if a.streams.Some? {
      forall k | 0 <= k < |a.streams.value|
        ensures NoUpper(b.streams.value[k])
      {
        LowerHasNoUpper(a.streams.value[k]);
      }
    }
  }

  /** An already lower-case configuration is left as it is. */
  lemma NormalizeKeepsLowerConfig(config: ReceiverConfig)
    requires IsLowerConfig(config)
    ensures NormalizeConfig(config) == config
  {
    var r := NormalizeConfig(config);
    match config.symbols {
      case SymbolText(text) => LowerOfNoUpper(text);
      case SymbolList(names) =>
        forall k | 0 <= k < |names|
          ensures r.symbols.names[k] == names[k]
        {
          LowerOfNoUpper(names[k]);
        }
        assert r.symbols.names == names;
    }
    if config.streams.Some? {
      forall k | 0 <= k < |config.streams.value|
        ensures r.streams.value[k] == config.streams.value[k]
      {
        LowerOfNoUpper(config.streams.value[k]);
      }
      assert r.streams.value == config.streams.value;
    }
  }

  /** Normalising twice is normalising once. */
  lemma NormalizeConfigIdempotent(config: ReceiverConfig)
    ensures NormalizeConfig(NormalizeConfig(config)) == NormalizeConfig(config)
  {
    NormalizeKeepsLowerConfig(NormalizeConfig(config));
  }

  /** The symbols the receiver subscribes to, given the configuration and the
      exchange's symbol list. */
  function ReceiverSymbols(config: ReceiverConfig, infos: seq<SymbolInfo>): Symbols {
    SelectSymbols(NormalizeConfig(config).symbols, infos)
  }

  /** Because the configuration is lower-cased first, a single symbol string
      spelling "all" in any case selects exactly the trading symbols. */
  lemma AnyCaseOfAllSelectsTrading(text: string, streams: Option<seq<string>>, infos: seq<SymbolInfo>)
    requires Lower(text) == "all"
    ensures ReceiverSymbols(ReceiverConfig(SymbolText(text), streams), infos) == SymbolList(TradingSymbols(infos))
  {
  }

  /** A list of symbols is never the keyword, even the list holding only
      "ALL": it is used as given, lower-cased. */
  lemma SymbolListIsUsedAsGiven(names: seq<string>, streams: Option<seq<string>>, infos: seq<SymbolInfo>)
    ensures ReceiverSymbols(ReceiverConfig(SymbolList(names), streams), infos) == SymbolList(LowerAll(names))
  {
  }
}

=== FILE: text.dfy ===
/** Python `str` methods used by the system, over ASCII: `lower`, `upper`,
    `strip(c)` with a single character, and `split(sep)` with a one-character
    separator (with its inverse, `sep.join`). */
module Text {

  predicate IsUpperChar(c: char) { 'A' <= c <= 'Z' }

  predicate IsLowerChar(c: char) { 'a' <= c <= 'z' }

  function LowerChar(c: char): char {
    if IsUpperChar(c) then (c as int + 32) as char else c
  }

  function UpperChar(c: char): char {
    if IsLowerChar(c) then (c as int - 32) as char else c
  }

  /** `s.lower()`; characters outside A-Z are kept. */
  function Lower(s: string): string {
    seq(|s|, i requires 0 <= i < |s| => LowerChar(s[i]))
  }

  /** `s.upper()`; characters outside a-z are kept. */
  function Upper(s: string): string {
    seq(|s|, i requires 0 <= i < |s| => UpperChar(s[i]))
  }

  /** No character of `s` is an ASCII upper-case letter. */
  predicate NoUpper(s: string) {
    forall i :: 0 <= i < |s| ==> !IsUpperChar(s[i])
  }

  /** `r` occurs in `s` as a contiguous run of characters. */
  ghost predicate IsInfix(r: string, s: string) {
    exists i :: InfixAt(r, s, i)
  }

  /** `r` occurs in `s` starting at position `i`. */
  predicate InfixAt(r: string, s: string, i: int) {
    0 <= i <= |s| - |r| && r == s[i..i + |r|]
  }

  /** An infix of an infix is an infix. */
  lemma InfixTransitive(a: string, b: string, c: string, i: int, j: int)
    requires InfixAt(a, b, i) && InfixAt(b, c, j)
    ensures InfixAt(a, c, i + j)
  {
    forall k | 0 <= k < |a|
      ensures a[k] == c[i + j + k]
    {
      assert a[k] == b[i + k];
    }
  }

  lemma LowerHasNoUpper(s: string)
    ensures NoUpper(Lower(s))
  {
  }

  /** Lower-casing an already lower-case string changes nothing. */
  lemma LowerOfNoUpper(s: string)
    requires NoUpper(s)
    ensures Lower(s) == s
  {
  }

  lemma UpperOfLower(s: string)
    ensures Upper(Lower(s)) == Upper(s)
  {
  }

  lemma LowerOfUpper(s: string)
    ensures Lower(Upper(s)) == Lower(s)
  {
  }

  /** Case mapping never introduces nor removes the character `c` unless `c`
      is a letter. */
  lemma CaseKeepsNonLetter(s: string, c: char)
    requires !IsUpperChar(c) && !IsLowerChar(c)
    ensures c in Upper(s) <==> c in s
    ensures c in Lower(s) <==> c in s
  {
    if c in s {
      var i :| 0 <= i < |s| && s[i] == c;
      assert Upper(s)[i] == c && Lower(s)[i] == c;
    }
  }

  /** `s.lstrip(c)`: the suffix left after dropping every leading `c`. */
  function LStrip(s: string, c: char): (r: string)
    ensures |r| <= |s| && r == s[|s| - |r|..]
    ensures forall k :: 0 <= k < |s| - |r| ==> s[k] == c
    ensures |r| > 0 ==> r[0] != c
    decreases |s|
  {
    if |s| > 0 && s[0] == c then LStrip(s[1..], c) else s
  }

  /** `s.rstrip(c)`: the prefix left after dropping every trailing `c`. */
  function RStrip(s: string, c: char): (r: string)
    ensures |r| <= |s| && r == s[..|r|]
    ensures forall k :: |r| <= k < |s| ==> s[k] == c
    ensures |r| > 0 ==> r[|r| - 1] != c
    decreases |s|
  {
    if |s| > 0 && s[|s| - 1] == c then RStrip(s[..|s| - 1], c) else s
  }

  /** `s.strip(c)`: the longest run of `s` that neither starts nor ends with
      `c`, once only copies of `c` are cut from both ends. */
  function Strip(s: string, c: char): (r: string)
    ensures exists i :: StrippedAt(s, c, r, i)
    ensures |r| > 0 ==> r[0] != c && r[|r| - 1] != c
  {
    var l := LStrip(s, c);
    var r := RStrip(l, c);
    assert StrippedAt(s, c, r, |s| - |l|) by {
      assert r == s[|s| - |l|..][..|r|];
      forall k | |s| - |l| + |r| <= k < |s|
        ensures s[k] == c
      {
        assert s[k] == l[k - (|s| - |l|)];
      }
    }
    r
  }

  /** `r` is the run `s[i..i+|r|]` and everything outside it is `c`. */
  ghost predicate StrippedAt(s: string, c: char, r: string, i: int) {
    && 0 <= i <= |s| - |r|
    && r == s[i..i + |r|]
    && (forall k :: 0 <= k < i ==> s[k] == c)
    && (forall k :: i + |r| <= k < |s| ==> s[k] == c)
  }

  /** `r` is `s.strip(c)`: a run of `s` with only copies of `c` cut from its
      two ends, and no `c` left at either end of it. */
  ghost predicate IsStripOf(s: string, c: char, r: string) {
    && (exists i :: StrippedAt(s, c, r, i))
    && (|r| > 0 ==> r[0] != c && r[|r| - 1] != c)
  }

  /** Stripping a string that neither starts nor ends with `c` returns it. */
  lemma StripClean(s: string, c: char)
    requires |s| > 0 ==> s[0] != c && s[|s| - 1] != c
    ensures Strip(s, c) == s
  {
  }

  /** `s.split(sep)`: the fields between occurrences of `sep`; there is one
      more field than there are separators, so the result is never empty. */
  function Split(s: string, sep: char): (parts: seq<string>)
    ensures |parts| >= 1
    ensures forall k :: 0 <= k < |parts| ==> sep !in parts[k]
  {
    if |s| == 0 then [""]
    else
      var rest := Split(s[1..], sep);
      if s[0] == sep then [""] + rest
      else [[s[0]] + rest[0]] + rest[1..]
  }

  /** `sep.join(parts)`. */
  function Join(parts: seq<string>, sep: char): string
    requires |parts| >= 1
  {
    if |parts| == 1 then parts[0] else parts[0] + [sep] + Join(parts[1..], sep)
  }

  /** `s.split(sep)[-1]`: the text after the last `sep`, or all of `s`. */
  function LastField(s: string, sep: char): string {
    var parts := Split(s, sep);
    parts[|parts| - 1]
  }

  /** A string without the separator is a single field. */
  lemma {:induction false} SplitWithoutSep(s: string, sep: char)
    requires sep !in s
    ensures Split(s, sep) == [s]
    decreases |s|
  {
    if |s| > 0 {
      SplitWithoutSep(s[1..], sep);
      assert [s[0]] + s[1..] == s;
    }
  }

  /** There are at least two fields exactly when the separator occurs. */
  lemma {:induction false} SplitHasSeveralFields(s: string, sep: char)
    ensures |Split(s, sep)| >= 2 <==> sep in s
    decreases |s|
  {
    if sep !in s {
      SplitWithoutSep(s, sep);
    } else if s[0] != sep {
      SplitHasSeveralFields(s[1..], sep);
    }
  }

  /** Splitting distributes over concatenation around one separator. */
  lemma {:induction false} SplitConcat(x: string, y: string, sep: char)
    ensures Split(x + [sep] + y, sep) == Split(x, sep) + Split(y, sep)
    decreases |x|
  {
    if |x| == 0 {
      assert x + [sep] + y == [sep] + y;
      assert ([sep] + y)[1..] == y;
    } else {
      assert (x + [sep] + y)[1..] == x[1..] + [sep] + y;
      SplitConcat(x[1..], y, sep);
    }
  }

  /** Joining the fields of a split gives back the original string. */
  lemma {:induction false} JoinSplit(s: string, sep: char)
    ensures Join(Split(s, sep), sep) == s
    decreases |s|
  {
    if |s| > 0 {
      var rest := Split(s[1..], sep);
      JoinSplit(s[1..], sep);
      if s[0] == sep {
        assert ([""] + rest)[1..] == rest;
      } else {
        var parts := [[s[0]] + rest[0]] + rest[1..];
        if |rest| == 1 {
          assert s == [s[0]] + s[1..];
        } else {
          assert parts[1..] == rest[1..];
          assert Join(rest, sep) == rest[0] + [sep] + Join(rest[1..], sep);
          assert s == [s[0]] + s[1..];
        }
      }
    }
  }

  /** Splitting the join of separator-free fields gives back the fields. */
  lemma {:induction false} SplitJoin(parts: seq<string>, sep: char)
    requires |parts| >= 1
    requires forall k :: 0 <= k < |parts| ==> sep !in parts[k]
    ensures Split(Join(parts, sep), sep) == parts
    decreases |parts|
  {
    SplitWithoutSep(parts[0], sep);
    if |parts| > 1 {
      SplitJoin(parts[1..], sep);
      SplitConcat(parts[0], Join(parts[1..], sep), sep);
      assert [parts[0]] + parts[1..] == parts;
    }
  }

  /** The last field is the suffix of `s` after its last separator: it holds
      no separator, and it is either all of `s` or preceded by a separator. */
  lemma {:induction false} LastFieldIsSuffix(s: string, sep: char)
    ensures |LastField(s, sep)| <= |s|
    ensures s[|s| - |LastField(s, sep)|..] == LastField(s, sep)
    ensures sep !in LastField(s, sep)
    ensures |LastField(s, sep)| == |s| <==> sep !in s
    ensures |LastField(s, sep)| < |s| ==> s[|s| - |LastField(s, sep)| - 1] == sep
    decreases |s|
  {
    if sep !in s {
      SplitWithoutSep(s, sep);
    } else {
      var rest := Split(s[1..], sep);
      LastFieldIsSuffix(s[1..], sep);
      if s[0] != sep {
        SplitHasSeveralFields(s[1..], sep);
      }
      assert LastField(s, sep) == rest[|rest| - 1];
      assert s[1..][|s| - 1 - |LastField(s, sep)|..] == s[|s| - |LastField(s, sep)|..];
    }
  }
}

=== FILE: utils.dfy ===
/** `utils.py`: string normalisation, the MongoDB connection string, and the
    naming of per-symbol, per-stream collections. */
module Utils {
  import opened Outcomes
  import opened Text

  /** `get_standardized_str`: lower-case, then strip newlines from both ends,
      then strip spaces from both ends. */
  function GetStandardizedStr(s: string): (r: string)
    ensures NoUpper(r)
    ensures |r| > 0 ==> r[0] != ' ' && r[|r| - 1] != ' '
    ensures exists i :: CutFromEnds(Lower(s), r, i)
    ensures exists m :: IsStripOf(Lower(s), '\n', m) && IsStripOf(m, ' ', r)
  {
    var low := Lower(s);
    var m := Strip(low, '\n');
    var r := Strip(m, ' ');
    assert IsStripOf(low, '\n', m) && IsStripOf(m, ' ', r);
    StripTwiceCutsEnds(low);
    LowerHasNoUpper(s);
    assert NoUpper(r) by {
      var i :| CutFromEnds(low, r, i);
      assert InfixAt(r, low, i);
      NoUpperInfix(r, low);
    }
    r
  }

  /** `r` is the run of `t` at position `i`, and every character of `t`
      outside it is a newline or a space. */
  ghost predicate CutFromEnds(t: string, r: string, i: int) {
    && InfixAt(r, t, i)
    && forall k :: 0 <= k < |t| && !(i <= k < i + |r|) ==> t[k] == '\n' || t[k] == ' '
  }

  /** Stripping newlines and then spaces cuts only newlines and spaces, and
      only from the two ends. */
  lemma StripTwiceCutsEnds(t: string)
    ensures exists i :: CutFromEnds(t, Strip(Strip(t, '\n'), ' '), i)
  {
    var m := Strip(t, '\n');
    var r := Strip(m, ' ');
    var i1 :| StrippedAt(t, '\n', m, i1);
    var i2 :| StrippedAt(m, ' ', r, i2);
    InfixTransitive(r, m, t, i2, i1);
    forall k | 0 <= k < |t| && !(i1 + i2 <= k < i1 + i2 + |r|)
      ensures t[k] == '\n' || t[k] == ' '
    {
      if i1 <= k < i1 + |m| {
        assert t[k] == m[k - i1];
      }
    }
    assert CutFromEnds(t, r, i1 + i2);
  }

  lemma NoUpperInfix(r: string, s: string)
    requires IsInfix(r, s) && NoUpper(s)
    ensures NoUpper(r)
  {
    var i :| InfixAt(r, s, i);
    forall k | 0 <= k < |r|
      ensures !IsUpperChar(r[k])
    {
      assert r[k] == s[i + k];
    }
  }

  /** A lower-case string with no newline or space at either end is already
      standard. */
  lemma StandardizedKeepsCleanInput(s: string)
    requires NoUpper(s)
    requires |s| > 0 ==> s[0] != '\n' && s[0] != ' '
    requires |s| > 0 ==> s[|s| - 1] != '\n' && s[|s| - 1] != ' '
    ensures GetStandardizedStr(s) == s
  {
    LowerOfNoUpper(s);
    StripClean(s, '\n');
    StripClean(s, ' ');
  }

  /** The two strips run in sequence, so a newline shielded by a space
      survives: the function is not idempotent. */
  lemma StandardizedIsNotIdempotent()
    ensures GetStandardizedStr(" \nA") == "\na"
    ensures GetStandardizedStr(GetStandardizedStr(" \nA")) == "a"
  {
    StandardizedShieldedNewline();
    StandardizedBareNewline();
  }

  lemma StandardizedShieldedNewline()
    ensures GetStandardizedStr(" \nA") == "\na"
  {
    LowerExample();
    StripNewlineShielded();
    StripSpaceExposesNewline();
  }

  lemma StandardizedBareNewline()
    ensures GetStandardizedStr("\na") == "a"
  {
    var s := "\na";
    assert s[0] == '\n' && s[1] == 'a';
    assert NoUpper(s);
    LowerOfNoUpper(s);
    StripExposedNewline();
    StripClean("a", ' ');
  }

  lemma LowerExample()
    ensures Lower(" \nA") == " \na"
  {
    assert Lower(" \nA")[2] == LowerChar('A') == 'a';
  }

  lemma StripNewlineShielded()
    ensures Strip(" \na", '\n') == " \na"
  {
    StripClean(" \na", '\n');
  }

  lemma StripSpaceExposesNewline()
    ensures Strip(" \na", ' ') == "\na"
  {
    var s := " \na";
    assert s[0] == ' ' && s[1] == '\n' && s[2] == 'a';
    assert s[1..] == "\na";
    StripLeading(s, ' ');
  }

  lemma StripExposedNewline()
    ensures Strip("\na", '\n') == "a"
  {
    var s := "\na";
    assert s[0] == '\n' && s[1] == 'a';
    assert s[1..] == "a";
    StripLeading(s, '\n');
  }

  /** Stripping a string whose only `c` is its first character drops it. */
  lemma StripLeading(s: string, c: char)
    requires |s| >= 2 && s[0] == c && s[1] != c && s[|s| - 1] != c
    ensures Strip(s, c) == s[1..]
  {
    assert LStrip(s, c) == LStrip(s[1..], c) == s[1..];
  }

  /** How an f-string renders the result of `os.getenv`: an unset variable
      reads as `None` and prints as "None". */
  function EnvText(v: Option<string>): string {
    match v
    case None => "None"
    case Some(s) => s
  }

  const MongoScheme := "mongodb://"
  const MongoPortSuffix := ":27017/"

  /** The connection string of `init_mongodb_connection`: an explicit
      `connect_cred` verbatim (even when empty), otherwise a URI built from the
      user, password and host environment variables on port 27017. */
  function ConnectionString(connectCred: Option<string>, user: Option<string>,
                            password: Option<string>, host: Option<string>): (uri: string)
    ensures connectCred.Some? ==> uri == connectCred.value
    ensures connectCred.None? ==> MongoScheme <= uri
    ensures connectCred.None? ==> |uri| >= |MongoPortSuffix| && uri[|uri| - |MongoPortSuffix|..] == MongoPortSuffix
  {
    match connectCred
    case Some(cred) => cred
    case None =>
      MongoScheme + EnvText(user) + ":" + EnvText(password) + "@" + EnvText(host) + MongoPortSuffix
  }

  /** Reads user, password and host back out of a default connection string. */
  function DefaultUriParts(uri: string): Option<(string, string, string)> {
    if |uri| < |MongoScheme| + |MongoPortSuffix| then None
    else
      var middle := uri[|MongoScheme|..|uri| - |MongoPortSuffix|];
      var atParts := Split(middle, '@');
      if |atParts| != 2 then None
      else
        var colonParts := Split(atParts[0], ':');
        if |colonParts| != 2 then None
        else Some((colonParts[0], colonParts[1], atParts[1]))
  }

  /** Without `connect_cred`, the user, password and host are recoverable from
      the connection string whenever the URI delimiters do not occur in them. */
  lemma ConnectionStringRoundTrip(user: Option<string>, password: Option<string>, host: Option<string>)
    requires ':' !in EnvText(user) && '@' !in EnvText(user)
    requires ':' !in EnvText(password) && '@' !in EnvText(password)
    requires '@' !in EnvText(host)
    ensures DefaultUriParts(ConnectionString(None, user, password, host))
            == Some((EnvText(user), EnvText(password), EnvText(host)))
  {
    var u, p, h := EnvText(user), EnvText(password), EnvText(host);
    var creds := u + ":" + p;
    var uri := ConnectionString(None, user, password, host);
    assert uri == MongoScheme + (creds + "@" + h) + MongoPortSuffix;
    assert uri[|MongoScheme|..|uri| - |MongoPortSuffix|] == creds + "@" + h;
    assert creds == u + [':'] + p;
    assert '@' !in creds;
    SplitAround(creds, h, '@');
    SplitAround(u, p, ':');
  }

  /** Joining two separator-free strings around the separator splits back
      into them. */
  lemma SplitAround(x: string, y: string, sep: char)
    requires sep !in x && sep !in y
    ensures Split(x + [sep] + y, sep) == [x, y]
  {
    SplitWithoutSep(x, sep);
    SplitWithoutSep(y, sep);
    SplitConcat(x, y, sep);
  }

  /** `get_db_collection`: the collection name is the upper-cased symbol and
      the lower-cased stream joined by an underscore. */
  function CollectionName(symbol: string, stream: string): string {
    Upper(symbol) + "_" + Lower(stream)
  }

  /** For symbols without an underscore, two collection names coincide exactly
      when the symbols agree up to case and the streams agree up to case. */
  lemma CollectionNameInjective(symbol1: string, stream1: string, symbol2: string, stream2: string)
    requires '_' !in symbol1 && '_' !in symbol2
    ensures CollectionName(symbol1, stream1) == CollectionName(symbol2, stream2)
            <==> Upper(symbol1) == Upper(symbol2) && Lower(stream1) == Lower(stream2)
  {
    var n1, n2 := CollectionName(symbol1, stream1), CollectionName(symbol2, stream2);
    if n1 == n2 {
      CaseKeepsNonLetter(symbol1, '_');
      CaseKeepsNonLetter(symbol2, '_');
      var u1, u2 := Upper(symbol1), Upper(symbol2);
      SplitConcat(u1, Lower(stream1), '_');
      SplitConcat(u2, Lower(stream2), '_');
      SplitWithoutSep(u1, '_');
      SplitWithoutSep(u2, '_');
      assert Split(n1, '_')[0] == u1 by { assert n1 == u1 + ['_'] + Lower(stream1); }
      assert Split(n2, '_')[0] == u2 by { assert n2 == u2 + ['_'] + Lower(stream2); }
      assert n1[|u1| + 1..] == Lower(stream1);
      assert n2[|u2| + 1..] == Lower(stream2);
    }
  }

  /** The name does not depend on the case in which symbol and stream are given. */
  lemma CollectionNameIgnoresCase(symbol: string, stream: string)
    ensures CollectionName(Lower(symbol), Upper(stream)) == CollectionName(symbol, stream)
  {
    UpperOfLower(symbol);
    LowerOfUpper(stream);
  }
}

=== FILE: values.dfy ===
/** Decoded wire values and the values stored in documents. */
module Values {

  /** A decoded JSON value. Numbers are integers (the trade feed sends integer
      ids and millisecond timestamps; prices arrive as strings). */
  datatype Json =
    | JNull
    | JBool(b: bool)
    | JNum(n: int)
    | JStr(s: string)
    | JArr(items: seq<Json>)
    | JObj(fields: map<string, Json>)

  /** A value held in a stored document: a value copied from the wire, or the
      datetime derived from a millisecond timestamp (kept as that timestamp,
      which determines it). */
  datatype Value = Wire(json: Json) | DateTime(millis: int)
}
